=== FILE: README.md ===
# MaCosplay core, modelled in Dafny

This project models the parts of the MaCosplay web application that make
decisions, and proves properties of them:

- **Service worker** (`static/sw.js`). The browser cache is a list of named
  partitions in creation order. The model covers:
  - install, which seeds the static partition all-or-nothing;
  - activate, which deletes every partition not named by the current version;
  - the fetch router;
  - the two cache-first strategies, for images and for same-origin static files;
  - `isCacheableUrl`.
- **Image probe** (`GET /api/check-images`):
  - the item-id validation;
  - the fourteen candidate paths;
  - the HEAD-probe loop;
  - the keyword classification of each found image.
- **Feature-request board API** (`/brainstorm/api`). GET lists the in-memory
  store. POST validates a JSON body and appends a new record.
- **Thai i18n helpers** (`src/lib/i18n/index.ts`):
  - `t` and `getNestedTranslation`, looked up in the board's part of the Thai table;
  - `formatThaiDate`, which gives Buddhist-era dates;
  - `formatThaiRelativeTime`.
- **Compression rules** (`src/lib/utils/imageCompression.ts`):
  `shouldCompressImage` and `getOptimalCompressionOptions`.

Every operation is a pure function, or a method with loop invariants. State
is passed in explicitly and returned: the cache storage and the feature
store. The outside world comes in as parameters:

| Outside input | Parameter |
|---|---|
| network answer in the worker | `FetchOutcome` |
| HEAD probe result | `string -> Probe` oracle |
| generated record id | `newId` |
| the clock | `nowMs` |
| a parsed date | `LocalDate`: its time value plus local day, month index and year |

Files:

| file | module | what it holds |
|---|---|---|
| `wrappers.dfy` | `Wrappers` | `Option` and `Result` |
| `text.dfy` | `Text` | JavaScript string built-ins: `startsWith`, `endsWith`, `includes`, `trim` and `String(n)` |
| `sw_cache.dfy` | `ServiceWorker` | the service worker |
| `check_images.dfy` | `CheckImages` | the image probe |
| `json.dfy` | `Json` | parsed request bodies, truthiness and property access |
| `brainstorm.dfy` | `Brainstorm` | the feature-request API |
| `i18n.dfy` | `I18n` | translation lookup and Thai dates |
| `compression.dfy` | `Compression` | the compression decision rules |

One consequence of the worker's routing order is worth stating. A
same-origin `/favicon.png` matches the image test (`static/sw.js:66-67`)
before the same-origin test. It is therefore looked up only in the image
partition, although install seeded it into the static one.
`ServiceWorker.FaviconTakesImageRoute` states this routing.

## Model

| member | source | states |
|---|---|---|
| `Text.Trim` | src/routes/brainstorm/api/+server.ts:78-97 | `trim()` removes only white space, and only from the ends: the result is an infix of the input with white-space runs on both sides. The result starts and ends with non-white-space. It is empty exactly when the input is all white space. |
| `ServiceWorker.IsCacheableUrl` | static/sw.js:13-15 | A URL is cacheable exactly when its scheme (the text before its first ':') is `http` or `https`. |
| `ServiceWorker.MatchAny` | static/sw.js:114 | `caches.match(key)` answers nothing exactly when no partition holds the key. Otherwise it answers the entry of the first partition, in creation order, that holds the key. |
| `ServiceWorker.MatchIn` | static/sw.js:91 | `cache.match(key)` answers exactly when the named partition exists and holds the key, and then with that partition's entry. |
| `ServiceWorker.AddAllEntries` | static/sw.js:24 | After a successful `cache.addAll`, the partition holds its old keys plus the seed keys. Every seed key holds its fetched response, and every other key keeps its old response. |
| `ServiceWorker.Open` | static/sw.js:90 | `caches.open` yields the named partition and creates it empty when it is missing. A created partition goes last, and every existing partition keeps its position. It leaves every other partition, and every `caches.match` answer, unchanged. |
| `ServiceWorker.Put` | static/sw.js:103-105 | After `cache.put`, the stored response is found under its key. Other keys of the partition and all other partitions are unchanged, and every partition keeps its position. |
| `ServiceWorker.Install` | static/sw.js:18-31 | Install succeeds exactly when every seed file (`/`, `/offline.html`, `/favicon.png`) fetches ok. Each seed is then in the static partition, and every other key of that partition keeps its old answer. A failed install leaves the storage as `caches.open` left it: the static partition exists, with its old contents, and no `caches.match` answer changes. No other partition changes, every partition keeps its position, and distinct partition names are preserved. |
| `ServiceWorker.Activate` | static/sw.js:34-53 | After activation, a partition is present exactly when it was present before and bears one of the three current names. Kept partitions keep their contents. |
| `ServiceWorker.ActivateWellFormed` | static/sw.js:37-47 | Deleting old partitions keeps partition names distinct. |
| `ServiceWorker.ActivateOnlyForgets` | static/sw.js:39-45 | Activation never makes a request answerable from cache that was not answerable before. |
| `ServiceWorker.ActivateKeepsAnswer` | static/sw.js:37-47 | Deleting old partitions keeps the remaining ones in creation order. When the first partition holding a key bears a current name, `caches.match` gives the same answer after activation. |
| `ServiceWorker.RouteOf` | static/sw.js:56-84 | Non-GET requests are not intercepted. An image destination or an image extension (case-insensitive) takes the image strategy. Otherwise a same-origin request takes the static strategy. Otherwise a host containing `file.macosplay.com` or `pocketbase` takes the image strategy. Nothing else is intercepted. Each route is characterised in both directions. |
| `ServiceWorker.HandleImageRequest` | static/sw.js:87-122 | A hit in the image partition is served as is. On a miss the network answer is returned, and it is cached only when ok. Caching adds or replaces that one key and keeps the partition's other entries. A non-ok answer is returned uncached with no fallback. Only a network error falls back: first to the cached placeholder, then to a 404 "Image not available". Only the image partition changes, and every partition keeps its position. |
| `ServiceWorker.HandleStaticRequest` | static/sw.js:125-159 | The same cache-first strategy on the static partition, with the same caching of an ok answer. Only the static partition changes, and every partition keeps its position. On a network error, a navigation gets the cached offline page if there is one; every other case gets a 404 "Resource not available". |
| `ServiceWorker.HandleFetch` | static/sw.js:56-84 | A request is passed through exactly when the router leaves it unhandled, and every non-GET request is passed through. A handled request is answered by its route's strategy. A hit in the route's partition is served from it with storage unchanged. On a miss, a network answer is returned as is. A handled request changes only the partition of its strategy and keeps partition names distinct. |
| `ServiceWorker.FaviconTakesImageRoute` | static/sw.js:65-76 | A same-origin GET of `/favicon.png` takes the image route, never the static partition where install seeded it. |
| `ServiceWorker.ImageSecondRequestHits` | static/sw.js:91-107 | After an ok image answer has been cached, the same request is served from cache without the network, and storage does not change. |
| `ServiceWorker.StaticSecondRequestHits` | static/sw.js:129-143 | The same for the static strategy. |
| `ServiceWorker.ImageNotOkPassesThrough` | static/sw.js:99-109 | A non-ok image answer is returned as is and not cached, so the next identical request goes back to the network. |
| `ServiceWorker.OfflinePageAfterInstall` | static/sw.js:149-155 | After install and activation, a navigation that misses the static partition during a network error gets the cached offline page. |
| `ServiceWorker.MatchInFoundByMatchAny` | static/sw.js:151 | `caches.match` across all partitions finds every key held by some partition. |
| `CheckImages.ValidateItemId` | src/routes/api/check-images/+server.ts:5-15 | An absent or empty `itemId` is "Item ID is required". An id is accepted exactly when it is non-empty and every character matches `[a-zA-Z0-9_-]`. A non-empty id with any other character is "Invalid item ID format". An accepted id contains no '/' or '.'. |
| `CheckImages.Candidates` | src/routes/api/check-images/+server.ts:17-32 | Exactly fourteen paths: each of the seven names, with `.jpg` then `.png`, under the item's folder. |
| `CheckImages.ClassifyFirstKeyword` | src/routes/api/check-images/+server.ts:51-56 | The type is decided by the first keyword, in the order main, detail, back, side, accessories, full, that occurs anywhere in the path. It is `other` exactly when none occurs. |
| `CheckImages.ImageUrl` | src/routes/api/check-images/+server.ts:40 | A probed URL is the store's base URL, one '/', and then the path, so the path can be read back from it. |
| `CheckImages.Classify` | src/routes/api/check-images/+server.ts:51-56 | The nested `includes` test. Its property is stated by `CheckImages.ClassifyFirstKeyword`. |
| `CheckImages.ProbeAll` | src/routes/api/check-images/+server.ts:38-63 | The loop produces the report defined by `Available`, one entry per ok probe in probe order. A thrown probe is skipped like a non-ok one. |
| `CheckImages.Get` | src/routes/api/check-images/+server.ts:4-71 | A validation failure answers 400 with its message. Otherwise the answer echoes the id, lists the ok-probed candidates, and has `count` equal to their number, which is at most 14. |
| `CheckImages.AvailableIsOkPaths` | src/routes/api/check-images/+server.ts:47-58 | The report's paths are exactly the ok-answered candidates, in order, each with its own URL and type. |
| `CheckImages.OkPathsMembers` | src/routes/api/check-images/+server.ts:47-58 | A path is reported exactly when it is a candidate and its probe answered ok. |
| `CheckImages.AvailableSound` | src/routes/api/check-images/+server.ts:47-57 | Every reported entry is a probed path that answered ok, with that path's URL and type. |
| `CheckImages.ItemIdMentioningMain` | src/routes/api/check-images/+server.ts:51 | When the item id itself contains "main", every found image is typed `main`: the keyword test looks at the whole path. |
| `CheckImages.FileNameType` | src/routes/api/check-images/+server.ts:51-56 | Each candidate file name alone classifies as its own type; `detail1` and `detail2` classify as `detail`. |
| `CheckImages.PlainItemIdTypes` | src/routes/api/check-images/+server.ts:51-56 | When the item id contains no keyword, every candidate is typed by its file name. |
| `Brainstorm.ReadText` | src/routes/brainstorm/api/+server.ts:78-88 | `data.x?.trim()` gives usable text exactly when the field is a string that is not all white space. It throws, giving "Invalid request data", exactly when the field is present, not null, and not a string. |
| `Brainstorm.DefaultTags` | src/routes/brainstorm/api/+server.ts:101 | `data.tags \|\| []` keeps truthy tags and replaces missing or falsy ones with an empty list. The result is always truthy. |
| `Brainstorm.Post` | src/routes/brainstorm/api/+server.ts:73-115 | Status 201 means created and 400 means error. An error leaves the store unchanged; a creation appends exactly the new record. The new record has the given id, status `requested`, 0 votes, non-blank trimmed title, description and author, and truthy tags. An unparseable or `null` body is "Invalid request data". Any other body creates a record exactly when its title, description and author are all strings that are not all white space. |
| `Brainstorm.ValidationOrder` | src/routes/brainstorm/api/+server.ts:78-88 | Title, description and author are checked in that order, and the first failure decides the message. A field that is missing, `null` or blank gives its "… is required" message. A field that is present but not a string gives "Invalid request data". |
| `Brainstorm.CreatedRecordFields` | src/routes/brainstorm/api/+server.ts:90-106 | A created record stores the trimmed strings and copies category, priority and the defaulted tags from the body. |
| `Brainstorm.Get` | src/routes/brainstorm/api/+server.ts:69-71 | GET lists the store. Its relation to POST is stated by `Brainstorm.GetAfterPost`. |
| `Brainstorm.GetAfterPost` | src/routes/brainstorm/api/+server.ts:69-71 | After a POST, GET lists the old records unchanged, followed by the new record if one was created. |
| `Brainstorm.RepostRoundTrip` | src/routes/brainstorm/api/+server.ts:90-110 | Posting a created record's own fields again creates the same record under the new id: trimming is idempotent and the tag default is stable. |
| `I18n.T` | src/lib/i18n/index.ts:4-6 | `t` answers either the key itself or a truthy table value for that key. A truthy table value is always the answer. |
| `I18n.GetNested` | src/lib/i18n/index.ts:9-15 | `getNestedTranslation` answers either the sub-key itself or the sub-table's value for it. When the key names a sub-table holding the sub-key, the answer is that value. |
| `I18n.FormatThaiDate` | src/lib/i18n/index.ts:18-34 | Day, Thai month name and Buddhist-era year, or "NaN undefined NaN" for an invalid date. Its properties are stated by `I18n.FormatThaiDateRoundTrip` and `I18n.InvalidDateUnreadable`. |
| `I18n.FormatThaiRelativeTime` | src/lib/i18n/index.ts:37-55 | The relative-time text. Its properties are stated by `I18n.RelativeTimeByAge` and `I18n.RelativeFallsBackToDate`. |
| `I18n.LabelTranslated` | src/lib/i18n/index.ts:4-6 | For a key of the label groups, `t` returns the table's non-empty string and never echoes the key. |
| `I18n.EnumLabelsTranslated` | src/lib/i18n/thai.ts:28-49 | Every status, category and priority value the board uses has a Thai label. |
| `I18n.CategoryIconFound` | src/lib/i18n/thai.ts:116-122 | `getNestedTranslation('categoryIcons', c)` returns the icon for every category and never falls back to the category name. |
| `I18n.PriorityIconFound` | src/lib/i18n/thai.ts:125-130 | The same for priorities and `priorityIcons`. |
| `I18n.MonthNameIndex` | src/lib/i18n/index.ts:21-24 | The twelve month names are distinct, so a month is recovered from its name. |
| `I18n.FormatThaiDateRoundTrip` | src/lib/i18n/index.ts:18-34 | The date text "day month year+543" loses nothing: day, month and Gregorian year are read back from it. |
| `I18n.InvalidDateUnreadable` | src/lib/i18n/index.ts:26-30 | An invalid date prints "NaN undefined NaN", which reads back as no date. |
| `I18n.MinutesToHours` | src/lib/i18n/index.ts:42-43 | Flooring to minutes and then to hours equals flooring the milliseconds to hours. |
| `I18n.HoursToDays` | src/lib/i18n/index.ts:43-44 | Flooring to hours and then to days equals flooring the milliseconds to days. |
| `I18n.AgeOf` | src/lib/i18n/index.ts:46-51 | Exactly one bucket applies: "just now" exactly under one minute (future dates included); 1–59 minutes; 1–23 hours; 1–6 days; an absolute date exactly from one week. |
| `I18n.RelativeTimeByAge` | src/lib/i18n/index.ts:37-55 | The stepwise-floored relative time equals the text of the age measured directly against 60 000, 3 600 000, 86 400 000 and 604 800 000 ms. |
| `I18n.RelativeFallsBackToDate` | src/lib/i18n/index.ts:46-51 | An invalid date, or one a week old or more, is printed by `formatThaiDate`. Under a minute it is "เมื่อสักครู่". |
| `Compression.ShouldCompressImage` | src/lib/utils/imageCompression.ts:143-145 | A file is compressed when it is strictly larger than the limit. Its default case is stated by `Compression.DefaultThreshold`. |
| `Compression.DefaultThreshold` | src/lib/utils/imageCompression.ts:143-145 | With the default limit a file is compressed exactly when it exceeds 2 097 152 bytes. A file of exactly 2 MiB is not compressed. |
| `Compression.OptimalOptions` | src/lib/utils/imageCompression.ts:150-162 | Every tier sets all four fields, and the format is always JPEG. |
| `Compression.OptimalOptionsByBytes` | src/lib/utils/imageCompression.ts:151-161 | Quality 0.6, 0.7, 0.8 or 0.9 applies exactly above 5 MiB, above 2 MiB, above 1 MiB, or otherwise, with strict boundaries. Only the top tier uses 1600×900; the others use 1920×1080. |
| `Compression.QualityNonIncreasing` | src/lib/utils/imageCompression.ts:153-161 | A larger file never gets a higher quality. |
| `Compression.OptimalWithinDefaults` | src/lib/utils/imageCompression.ts:27-32 | Once `compressImage`'s defaults are applied, the chosen options are JPEG with quality 0.6–0.9 and stay within the default 1920×1080 box. |
| `Compression.SmallFilesKeepHighQuality` | src/lib/utils/imageCompression.ts:157-160 | A file that needs no compression under the default limit would get quality 0.8 or 0.9. |

## Left out

- Browser plumbing of the worker is not modelled: `waitUntil`, `skipWaiting`, `clients.claim`, `respondWith` and console logging. The model keeps only the resulting cache state and the chosen response.
- Failures of the cache store itself are not modelled: `open`, `match`, `put` or `addAll` throwing for reasons other than a fetch. Two of these rejections come from ordinary inputs. `cache.put` rejects a 206 (partial content) response. It also rejects a request whose URL scheme is not `http` or `https`, which is what the unused `isCacheableUrl` tests. In both cases the source lands in its `catch` branch. There the image strategy answers with the placeholder or a 404. The static strategy answers a navigation with the offline page, and anything else with a 404. The model instead caches and returns the response.
- Concurrency between overlapping fetch events is not modelled. Each event runs to completion on the storage it is given.
- Real network I/O is not modelled. A fetch is a given outcome (a response, or a network error), and a HEAD probe is an oracle answer. The 5000 ms `AbortSignal` time-out of the probe is one of the ways a probe can throw.
- Request cloning and body streams are not modelled. A response is a status and a body string.
- URL parsing is not modelled. A request carries its parsed origin, host name and path beside the URL that serves as its cache key. Relative seed paths are resolved by prefixing the origin.
- `isCacheableUrl` is defined in the worker but never called. It is modelled on its own.
- `ServiceWorker.Install` accepts any 2xx seed answer. `cache.addAll` also rejects a 206 (partial content) answer, so the source's install fails where the model's succeeds.
- `I18n.GetNested` sees only a sub-table's own keys. The source's `subKey in nested` test also sees members inherited from `Object.prototype`. So `getNestedTranslation('categoryIcons', 'constructor')` returns Object's constructor function, where the model returns "constructor". Tables hold strings only, and inherited members are not modelled.
- `ServiceWorker.Install` resolves each seed path by prefixing the worker's origin. It does not model URL normalisation.
- `compressImage`, `compressImages`, `generateThumbnail` and the `compressionRatio` float are not modelled. They work with canvas, Image and Blob, using floating-point aspect-ratio scaling. Only the default values `compressImage` fills in are modelled.
- The brainstorm handler's `generateId` (`Math.random`, `Date.now`) is an input. The random `position` and the `createdAt`/`updatedAt` timestamps are not modelled.
- The JSON values in the model are null, booleans, integers, strings, arrays and objects. Non-integer numbers do not occur, and property access does not see prototype-chain members.
- `Date` parsing, the local time zone and the clock are inputs. A date is its time value together with its local day, month index and year.
- `I18n.RelativeTimeByAge` treats the divisions by 60 000, 60 and 24 as exact floor divisions. Binary floating point agrees with that for all differences below about 2^36 minutes (over 100 000 years).
- `Text.IntToString` prints every integer in plain decimal. JavaScript's `String()` agrees with that only below 10^21, where it switches to exponent notation. Date years are far below that bound.
- The `catch` branches of `formatThaiDate` and `formatThaiRelativeTime` are not modelled: `new Date` of a string does not throw, so they cannot be reached.
- The Thai label table in the model holds only the status, category and priority labels and the two icon sub-tables. The other labels of `src/lib/i18n/thai.ts` are page text that no property here is about. `t` and `getNestedTranslation` are defined for any table.
- The `timestamp` field of the image-probe answer (`new Date().toISOString()`) is not modelled. It reads the clock and is not part of `CheckResponse`.
- The four sample records the brainstorm store starts with are not modelled. GET and POST are stated for any store.
- `test-image-api.js` is not modelled. It is a network smoke test with no logic.
- The type declarations under `src/types/` are not modelled separately. They appear as datatypes in the modules that use them.

=== FILE: brainstorm.dfy ===
/** The feature-request board's collection endpoint
    (`/brainstorm/api`): GET lists the in-memory store, POST validates a
    request body and appends a new record.

    The store is an explicit value threaded through `Post`. The record id
    (random and clock based in the handler) is an input, and the timestamps
    and random board position are not modelled. */
module Brainstorm {
  import opened Wrappers
  import opened Text
  import opened Json

  datatype Category = UI | Feature | Improvement | Bug | OtherCategory {
    /** The wire spelling of the category. */
    function Name(): string {
      match this
      case UI => "ui"
      case Feature => "feature"
      case Improvement => "improvement"
      case Bug => "bug"
      case OtherCategory => "other"
    }
  }

  datatype Priority = Low | Medium | High | Critical {
    function Name(): string {
      match this
      case Low => "low"
      case Medium => "medium"
      case High => "high"
      case Critical => "critical"
    }
  }

  datatype Status = Requested | InReview | Approved | InProgress | Completed | Rejected {
    function Name(): string {
      match this
      case Requested => "requested"
      case InReview => "in-review"
      case Approved => "approved"
      case InProgress => "in-progress"
      case Completed => "completed"
      case Rejected => "rejected"
    }
  }

  /** A stored feature request. Category, priority and tags hold whatever
      the request body carried (`None` for a missing category or priority),
      since the handler copies them without checking. */
  datatype FeatureRequest = FeatureRequest(
    id: string,
    title: string,
    description: string,
    category: Option<Json>,
    priority: Option<Json>,
    status: Status,
    author: string,
    votes: int,
    tags: Json)

  const TitleRequired := "Title is required"
  const DescriptionRequired := "Description is required"
  const AuthorRequired := "Author is required"
  const InvalidRequestData := "Invalid request data"

  /** What `data.<name>?.trim()` yields: trimmed text, nothing usable
      (missing, `null`, or only white space), or a `TypeError` because the
      value is not a string and has no `trim` method. */
  datatype TextField = Given(text: string) | Blank | NotText

  function ReadText(data: Json, name: string): (r: TextField)
    requires data != JNull
    ensures r.Given? ==> r.text != [] && IsTrimmed(r.text)
    ensures r.Given? <==> Field(data, name).Some? && Field(data, name).value.JStr? &&
                          !AllWhiteSpace(Field(data, name).value.s)
    ensures r.NotText? <==> Field(data, name).Some? && !Field(data, name).value.JStr? &&
                            Field(data, name).value != JNull
  {
    match Field(data, name)
    case None => Blank
    case Some(JNull) => Blank
    case Some(JStr(s)) => if Trim(s) == "" then Blank else Given(Trim(s))
    case Some(_) => NotText
  }

  /** The JSON answer of a POST, with its HTTP status. */
  datatype Reply = Created(feature: FeatureRequest) | Error(message: string)

  datatype PostResult = PostResult(status: int, reply: Reply, store: seq<FeatureRequest>)

  /** `data.tags || []`: falsy or missing tags become the empty list. */
  function DefaultTags(data: Json): (r: Json)
    requires data != JNull
    ensures Field(data, "tags").Some? && Truthy(Field(data, "tags").value) ==> r == Field(data, "tags").value
    ensures Field(data, "tags").None? || !Truthy(Field(data, "tags").value) ==> r == JArr([])
    ensures Truthy(r)
  {
    match Field(data, "tags")
    case Some(t) => if Truthy(t) then t else JArr([])
    case None => JArr([])
  }

  function Fail(store: seq<FeatureRequest>, message: string): PostResult {
    PostResult(400, Error(message), store)
  }

  /** POST: `body` is the parsed request body (`None` when it is not valid
      JSON), `newId` the id the handler generates. Title, description and
      author are checked in that order; a record is appended only when all
      three are present. */
  function Post(store: seq<FeatureRequest>, body: Option<Json>, newId: string): (r: PostResult)
    ensures r.reply.Created? <==> r.status == 201
    ensures r.reply.Error? <==> r.status == 400
    ensures r.reply.Error? ==> r.store == store
    ensures r.reply.Created? ==> r.store == store + [r.reply.feature]
    ensures r.reply.Created? ==>
      var f := r.reply.feature;
      && f.id == newId && f.status == Requested && f.votes == 0
      && f.title != [] && f.description != [] && f.author != []
      && IsTrimmed(f.title) && IsTrimmed(f.description) && IsTrimmed(f.author)
      && Truthy(f.tags)
    ensures body.None? || body == Some(JNull) ==> r == Fail(store, InvalidRequestData)
    ensures body.Some? && body.value != JNull ==>
      (r.reply.Created? <==> && ReadText(body.value, "title").Given?
                             && ReadText(body.value, "description").Given?
                             && ReadText(body.value, "author").Given?)
  {
    match body
    case None => Fail(store, InvalidRequestData)
    case Some(data) =>
      if data == JNull then Fail(store, InvalidRequestData)
      else
        match ReadText(data, "title")
        case NotText => Fail(store, InvalidRequestData)
        case Blank => Fail(store, TitleRequired)
        case Given(title) =>
          match ReadText(data, "description")
          case NotText => Fail(store, InvalidRequestData)
          case Blank => Fail(store, DescriptionRequired)
          case Given(description) =>
            match ReadText(data, "author")
            case NotText => Fail(store, InvalidRequestData)
            case Blank => Fail(store, AuthorRequired)
            case Given(author) =>
              var f := FeatureRequest(newId, title, description, Field(data, "category"),
                                      Field(data, "priority"), Requested, author, 0, DefaultTags(data));
              PostResult(201, Created(f), store + [f])
  }

  /** GET: the stored list, as it is. */
  function Get(store: seq<FeatureRequest>): seq<FeatureRequest> {
    store
  }

  /** A string field of the body, when it is one. */
  function RawText(data: Json, name: string): Option<string>
    requires data != JNull
  {
    match Field(data, name)
    case Some(JStr(s)) => Some(s)
    case _ => None
  }

  /** The first failing field decides the answer: a title that is missing,
      `null` or only white space is reported before anything about the
      description or author, and so on down the list. */
  lemma ValidationOrder(store: seq<FeatureRequest>, data: Json, newId: string)
    requires data != JNull
    ensures ReadText(data, "title").Blank? ==> Post(store, Some(data), newId) == Fail(store, TitleRequired)
    ensures ReadText(data, "title").Given? && ReadText(data, "description").Blank? ==>
      Post(store, Some(data), newId) == Fail(store, DescriptionRequired)
    ensures ReadText(data, "title").Given? && ReadText(data, "description").Given? &&
            ReadText(data, "author").Blank? ==>
      Post(store, Some(data), newId) == Fail(store, AuthorRequired)
    ensures ReadText(data, "title").NotText? ==> Post(store, Some(data), newId) == Fail(store, InvalidRequestData)
    ensures ReadText(data, "title").Given? && ReadText(data, "description").NotText? ==>
      Post(store, Some(data), newId) == Fail(store, InvalidRequestData)
    ensures ReadText(data, "title").Given? && ReadText(data, "description").Given? &&
            ReadText(data, "author").NotText? ==>
      Post(store, Some(data), newId) == Fail(store, InvalidRequestData)
  {
  }

  /** A successful POST stores the trimmed texts and copies category,
      priority and (defaulted) tags from the body. */
  lemma CreatedRecordFields(store: seq<FeatureRequest>, data: Json, newId: string)
    requires data != JNull
    ensures var r := Post(store, Some(data), newId);
      r.reply.Created? ==>
      var f := r.reply.feature;
      && RawText(data, "title").Some? && f.title == Trim(RawText(data, "title").value)
      && RawText(data, "description").Some? && f.description == Trim(RawText(data, "description").value)
      && RawText(data, "author").Some? && f.author == Trim(RawText(data, "author").value)
      && f.category == Field(data, "category") && f.priority == Field(data, "priority")
      && f.tags == DefaultTags(data)
  {
    var title, description, author := ReadText(data, "title"), ReadText(data, "description"), ReadText(data, "author");
    if title.Given? && description.Given? && author.Given? {
      var f := FeatureRequest(newId, title.text, description.text, Field(data, "category"),
                              Field(data, "priority"), Requested, author.text, 0, DefaultTags(data));
      assert Post(store, Some(data), newId).reply == Created(f);
    }
  }

  /** After a successful POST, GET lists the old records unchanged followed
      by the new one; after a failed POST it lists exactly the old records. */
  lemma GetAfterPost(store: seq<FeatureRequest>, body: Option<Json>, newId: string)
    ensures var r := Post(store, body, newId);
      && |Get(r.store)| == |Get(store)| + (if r.reply.Created? then 1 else 0)
      && Get(r.store)[..|store|] == Get(store)
      && (r.reply.Created? ==> Get(r.store)[|store|] == r.reply.feature)
  {
  }

  /** The body a client would send to re-create a stored record. */
  function BodyOf(f: FeatureRequest): Json {
    var fields := map["title" := JStr(f.title), "description" := JStr(f.description),
                      "author" := JStr(f.author), "tags" := f.tags];
    var withCategory := if f.category.Some? then fields["category" := f.category.value] else fields;
    JObj(if f.priority.Some? then withCategory["priority" := f.priority.value] else withCategory)
  }

  /** What every created record satisfies: non-blank trimmed texts and truthy tags. */
  predicate Creatable(f: FeatureRequest) {
    && f.title != [] && f.description != [] && f.author != []
    && IsTrimmed(f.title) && IsTrimmed(f.description) && IsTrimmed(f.author)
    && Truthy(f.tags)
  }

  /** The fields `BodyOf` writes are read back as they were written. */
  lemma BodyOfFields(f: FeatureRequest)
    ensures BodyOf(f) != JNull
    ensures Field(BodyOf(f), "title") == Some(JStr(f.title))
    ensures Field(BodyOf(f), "description") == Some(JStr(f.description))
    ensures Field(BodyOf(f), "author") == Some(JStr(f.author))
    ensures Field(BodyOf(f), "category") == f.category
    ensures Field(BodyOf(f), "priority") == f.priority
    ensures Field(BodyOf(f), "tags") == Some(f.tags)
  {
  }

  /** A trimmed, non-blank string field reads back as itself. */
  lemma ReadTrimmed(data: Json, name: string, s: string)
    requires data != JNull && Field(data, name) == Some(JStr(s))
    requires s != [] && IsTrimmed(s)
    ensures ReadText(data, name) == Given(s)
  {
    TrimIdempotent(s);
  }

  /** Re-posting a created record's fields creates the same record again,
      under the new id: trimming is idempotent and the defaults are stable. */
  lemma RepostRoundTrip(f: FeatureRequest, store: seq<FeatureRequest>, newId: string)
    requires Creatable(f)
    ensures Post(store, Some(BodyOf(f)), newId) ==
      PostResult(201, Created(f.(id := newId, status := Requested, votes := 0)),
                 store + [f.(id := newId, status := Requested, votes := 0)])
  {
    var data := BodyOf(f);
    BodyOfFields(f);
    ReadTrimmed(data, "title", f.title);
    ReadTrimmed(data, "description", f.description);
    ReadTrimmed(data, "author", f.author);
    assert DefaultTags(data) == f.tags;
  }
}

=== FILE: check_images.dfy ===
/** The image-probe endpoint (`GET /api/check-images?itemId=…`): it validates
    the item id, probes fourteen candidate image files on the remote file
    store with HEAD requests, and reports the ones that answered ok.

    The network is an input: `probe` gives the outcome of the HEAD request
    for each URL. */
module CheckImages {
  import opened Wrappers
  import opened Text

  const BaseUrl := "https://file.macosplay.com/mxj3660ce5olheb"

  /** The candidate file names, each tried with ".jpg" and then ".png". */
  const ImageNames: seq<string> := ["main", "detail1", "detail2", "back", "side", "accessories", "full"]
  const Extensions: seq<string> := [".jpg", ".png"]

  datatype ImageType = Main | Detail | Back | Side | Accessories | Full | Other

  /** The substrings looked for, in order, to classify a path, with their types. */
  const Keywords: seq<string> := ["main", "detail", "back", "side", "accessories", "full"]
  const KeywordTypes: seq<ImageType> := [Main, Detail, Back, Side, Accessories, Full]

  datatype ImageInfo = ImageInfo(path: string, url: string, kind: ImageType)

  /** The outcome of one HEAD request: an ok status, another status, or a
      thrown error (network failure or the time-out). */
  datatype Probe = ProbeOk | ProbeNotOk | ProbeThrew

  datatype CheckResponse = CheckResponse(itemId: string, availableImages: seq<ImageInfo>, count: nat)

  /** A 200 answer with the report, or a 400 answer with its error text. */
  datatype Reply = Found(body: CheckResponse) | BadRequest(error: string)

  const MissingId := "Item ID is required"
  const MalformedId := "Invalid item ID format"

  /** One character of `[a-zA-Z0-9_-]`. */
  predicate IsIdChar(c: char) {
    ('a' <= c <= 'z') || ('A' <= c <= 'Z') || ('0' <= c <= '9') || c == '_' || c == '-'
  }

  /** The query parameter check: absent or empty is "required"; anything
      outside `^[a-zA-Z0-9_-]+$` is "invalid format". An accepted id can
      therefore contain neither '/' nor '.', so it cannot escape its folder. */
  function ValidateItemId(param: Option<string>): (r: Result<string, string>)
    ensures param.None? || param == Some("") ==> r == Failure(MissingId)
    ensures r.Success? <==>
      param.Some? && |param.value| > 0 && forall i :: 0 <= i < |param.value| ==> IsIdChar(param.value[i])
    ensures r.Failure? ==> r.error == MissingId || r.error == MalformedId
    ensures param.Some? && param.value != "" && r.Failure? ==> r.error == MalformedId
    ensures r.Success? ==> r.value == param.value && '/' !in r.value && '.' !in r.value
  {
    match param
    case None => Failure(MissingId)
    case Some(id) =>
      if id == "" then Failure(MissingId)
      else if forall i :: 0 <= i < |id| ==> IsIdChar(id[i]) then Success(id)
      else Failure(MalformedId)
  }

  /** The fourteen paths probed, in the order the handler lists them. */
  function Candidates(itemId: string): (r: seq<string>)
    ensures |r| == |ImageNames| * |Extensions| == 14
    ensures forall i :: 0 <= i < 14 ==> r[i] == itemId + "/" + ImageNames[i / 2] + Extensions[i % 2]
  {
    [ itemId + "/main.jpg", itemId + "/main.png",
      itemId + "/detail1.jpg", itemId + "/detail1.png",
      itemId + "/detail2.jpg", itemId + "/detail2.png",
      itemId + "/back.jpg", itemId + "/back.png",
      itemId + "/side.jpg", itemId + "/side.png",
      itemId + "/accessories.jpg", itemId + "/accessories.png",
      itemId + "/full.jpg", itemId + "/full.png" ]
  }

  /** The public URL of a path in the item store; the path is what follows
      the store's base URL and one '/'. */
  function ImageUrl(path: string): (r: string)
    ensures IsPrefix(BaseUrl + "/", r) && r[|BaseUrl| + 1..] == path
  {
    BaseUrl + "/" + path
  }

  /** The type of a found image: the first keyword that occurs anywhere in
      the path (item id included), or `Other` when none does. */
  function Classify(path: string): ImageType {
    if Contains(path, "main") then Main
    else if Contains(path, "detail") then Detail
    else if Contains(path, "back") then Back
    else if Contains(path, "side") then Side
    else if Contains(path, "accessories") then Accessories
    else if Contains(path, "full") then Full
    else Other
  }

  /** `Classify` picks the first keyword, in list order, that occurs in
      the path; `k` is its position, or `|Keywords|` when none occurs. */
  lemma ClassifyFirstKeyword(path: string) returns (k: nat)
    ensures k <= |Keywords|
    ensures forall j :: 0 <= j < k ==> !Contains(path, Keywords[j])
    ensures k < |Keywords| ==> Contains(path, Keywords[k]) && Classify(path) == KeywordTypes[k]
    ensures k == |Keywords| <==> Classify(path) == Other
  {
    k := 0;
    while k < |Keywords| && !Contains(path, Keywords[k])
      invariant k <= |Keywords|
      invariant forall j :: 0 <= j < k ==> !Contains(path, Keywords[j])
    {
      k := k + 1;
    }
    assert Keywords[0] == "main" && Keywords[1] == "detail" && Keywords[2] == "back";
    assert Keywords[3] == "side" && Keywords[4] == "accessories" && Keywords[5] == "full";
    if k > 0 { assert !Contains(path, Keywords[0]); }
    if k > 1 { assert !Contains(path, Keywords[1]); }
    if k > 2 { assert !Contains(path, Keywords[2]); }
    if k > 3 { assert !Contains(path, Keywords[3]); }
    if k > 4 { assert !Contains(path, Keywords[4]); }
    if k > 5 { assert !Contains(path, Keywords[5]); }
  }

  function Info(path: string): ImageInfo {
    ImageInfo(path, ImageUrl(path), Classify(path))
  }

  predicate Answered(probe: string -> Probe, path: string) {
    probe(ImageUrl(path)) == ProbeOk
  }

  /** The report after the first `|paths|` probes, as the handler's loop
      builds it: one entry appended per ok probe, others skipped. */
  function Available(paths: seq<string>, probe: string -> Probe): seq<ImageInfo>
    decreases |paths|
  {
    if paths == [] then []
    else
      var last := paths[|paths| - 1];
      Available(paths[..|paths| - 1], probe) + if Answered(probe, last) then [Info(last)] else []
  }

  /** Reference definition: the paths whose probe answered ok, in order. */
  function OkPaths(paths: seq<string>, probe: string -> Probe): seq<string>
    decreases |paths|
  {
    if paths == [] then []
    else (if Answered(probe, paths[0]) then [paths[0]] else []) + OkPaths(paths[1..], probe)
  }

  function PathsOf(infos: seq<ImageInfo>): seq<string> {
    seq(|infos|, i requires 0 <= i < |infos| => infos[i].path)
  }

  lemma {:induction false} OkPathsAppend(a: seq<string>, b: seq<string>, probe: string -> Probe)
    ensures OkPaths(a + b, probe) == OkPaths(a, probe) + OkPaths(b, probe)
    decreases |a|
  {
    if a == [] {
      assert a + b == b;
    } else {
      assert (a + b)[1..] == a[1..] + b;
      OkPathsAppend(a[1..], b, probe);
    }
  }

  /** The report lists exactly the ok-answered candidates, in candidate
      order, each with its URL and type. */
  lemma {:induction false} AvailableIsOkPaths(paths: seq<string>, probe: string -> Probe)
    ensures PathsOf(Available(paths, probe)) == OkPaths(paths, probe)
    ensures forall k :: 0 <= k < |Available(paths, probe)| ==> Available(paths, probe)[k] == Info(Available(paths, probe)[k].path)
    decreases |paths|
  {
    if paths != [] {
      var init := paths[..|paths| - 1];
      var last := paths[|paths| - 1];
      AvailableIsOkPaths(init, probe);
      OkPathsAppend(init, [last], probe);
      assert init + [last] == paths;
      assert OkPaths([last], probe) == if Answered(probe, last) then [last] else [];
    }
  }

  /** A path is reported iff it is a candidate and its probe answered ok. */
  lemma {:induction false} OkPathsMembers(paths: seq<string>, probe: string -> Probe)
    ensures forall p :: p in OkPaths(paths, probe) <==> p in paths && Answered(probe, p)
    ensures |OkPaths(paths, probe)| <= |paths|
    decreases |paths|
  {
    if paths != [] {
      OkPathsMembers(paths[1..], probe);
      assert forall p :: p in paths <==> p == paths[0] || p in paths[1..];
    }
  }

  /** The handler's probing loop: one HEAD request per path, in order,
      keeping the paths that answered ok. */
  method ProbeAll(paths: seq<string>, probe: string -> Probe) returns (found: seq<ImageInfo>)
    ensures found == Available(paths, probe)
    ensures |found| <= |paths|
  {
    found := [];
    var i := 0;
    while i < |paths|
      invariant 0 <= i <= |paths|
      invariant found == Available(paths[..i], probe)
      invariant |found| <= i
    {
      var path := paths[i];
      var url := BaseUrl + "/" + path;
      assert paths[..i + 1][..i] == paths[..i];
      assert Available(paths[..i + 1], probe) ==
        Available(paths[..i], probe) + if Answered(probe, path) then [Info(path)] else [];
      if probe(url) == ProbeOk {
        found := found + [ImageInfo(path, url, Classify(path))];
      }
      i := i + 1;
    }
    assert paths[..i] == paths;
  }

  /** `GET /api/check-images`: validate, probe the candidates, report. */
  method Get(param: Option<string>, probe: string -> Probe) returns (reply: Reply)
    ensures ValidateItemId(param).Failure? ==> reply == BadRequest(ValidateItemId(param).error)
    ensures ValidateItemId(param).Success? ==> reply.Found?
    ensures reply.Found? ==> param == Some(reply.body.itemId)
    ensures reply.Found? ==> reply.body.count == |reply.body.availableImages| <= 14
    ensures reply.Found? ==>
      reply.body.availableImages == Available(Candidates(reply.body.itemId), probe)
  {
    match ValidateItemId(param)
    case Failure(e) =>
      reply := BadRequest(e);
    case Success(itemId) =>
      var found := ProbeAll(Candidates(itemId), probe);
      reply := Found(CheckResponse(itemId, found, |found|));
  }

  /** Every reported entry is a probed path that answered ok, with that
      path's URL and type. */
  lemma {:induction false} AvailableSound(paths: seq<string>, probe: string -> Probe)
    ensures forall info :: info in Available(paths, probe) ==>
      info.path in paths && Answered(probe, info.path) && info == Info(info.path)
    decreases |paths|
  {
    if paths != [] {
      var init := paths[..|paths| - 1];
      AvailableSound(init, probe);
      assert forall p :: p in init ==> p in paths;
    }
  }

  /** An item id that itself contains "main" makes every found image a
      `Main`, whatever its file name. */
  lemma ItemIdMentioningMain(itemId: string, probe: string -> Probe)
    requires Contains(itemId, "main")
    ensures forall info :: info in Available(Candidates(itemId), probe) ==> info.kind == Main
  {
    var paths := Candidates(itemId);
    forall p | p in paths ensures Classify(p) == Main {
      var i :| 0 <= i < |paths| && paths[i] == p;
      CandidateMentionsItemId(itemId, i);
    }
    AvailableSound(paths, probe);
  }

  /** A word of the item id occurs in each of its candidate paths. */
  lemma CandidateMentionsItemId(itemId: string, i: nat)
    requires i < 14 && Contains(itemId, "main")
    ensures Classify(Candidates(itemId)[i]) == Main
  {
    var tail := "/" + ImageNames[i / 2] + Extensions[i % 2];
    ContainsLeft(itemId, tail, "main");
    assert Candidates(itemId)[i] == itemId + tail;
  }

  /** The type each candidate file name stands for. */
  const NameTypes: seq<ImageType> := [Main, Detail, Detail, Back, Side, Accessories, Full]

  /** The type of a file name alone ("detail1.jpg" is a `Detail`). Each
      keyword that must be ruled out has a letter the file name lacks. */
  lemma FileNameType(n: nat, ext: string)
    requires n < |ImageNames| && ext in Extensions
    ensures Classify(ImageNames[n] + ext) == NameTypes[n]
  {
    var name := ImageNames[n];
    var tail := name + ext;
    NameLetters(n, ext);
    assert IsPrefix(name, tail);
    ContainsPrefix(tail, name);
    if n > 0 {
      LacksChar(tail, "main", 0);
    }
    if n > 2 {
      LacksChar(tail, "detail", 2);
    }
    if n > 3 {
      LacksChar(tail, "back", 0);
    }
    if n > 4 {
      LacksChar(tail, "side", 2);
    }
    if n > 5 {
      LacksChar(tail, "accessories", 0);
    }
    if n == 1 || n == 2 {
      assert name[..6] == "detail";
      assert IsPrefix("detail", tail);
      ContainsPrefix(tail, "detail");
    }
  }

  /** The letters that tell the later file names from the earlier keywords. */
  lemma NameLetters(n: nat, ext: string)
    requires n < |ImageNames| && ext in Extensions
    ensures n > 0 ==> 'm' !in ImageNames[n] + ext
    ensures n > 2 ==> 't' !in ImageNames[n] + ext
    ensures n > 3 ==> 'b' !in ImageNames[n] + ext
    ensures n > 4 ==> 'd' !in ImageNames[n] + ext
    ensures n > 5 ==> 'a' !in ImageNames[n] + ext
  {
  }

  /** A text lacking one of a word's characters does not contain the word. */
  lemma LacksChar(s: string, w: string, j: nat)
    requires j < |w| && w[j] !in s
    ensures !Contains(s, w)
  {
  }

  lemma ContainsPrefix(s: string, w: string)
    requires IsPrefix(w, s)
    ensures Contains(s, w)
  {
  }

  /** A keyword without '/' occurs in `itemId + "/" + tail` exactly when
      it occurs in `tail`, given that it does not occur in `itemId`. */
  lemma OccursInFileName(itemId: string, tail: string, w: string)
    requires '/' !in w && !Contains(itemId, w)
    ensures Contains(itemId + ['/'] + tail, w) <==> Contains(tail, w)
  {
    if Contains(itemId + ['/'] + tail, w) {
      ContainsAcrossSeparator(itemId, '/', tail, w);
    }
    if Contains(tail, w) {
      ContainsRight(itemId + ['/'], tail, w);
    }
  }

  /** When the item id mentions no keyword, each found image is typed by
      its file name: main, detail, back, side, accessories or full. */
  lemma PlainItemIdTypes(itemId: string, i: nat)
    requires i < 14
    requires forall k :: 0 <= k < |Keywords| ==> !Contains(itemId, Keywords[k])
    ensures Classify(Candidates(itemId)[i]) == NameTypes[i / 2]
  {
    var tail := ImageNames[i / 2] + Extensions[i % 2];
    var path := Candidates(itemId)[i];
    assert path == itemId + ['/'] + tail;
    assert !Contains(itemId, Keywords[0]) && !Contains(itemId, Keywords[1]) && !Contains(itemId, Keywords[2]);
    assert !Contains(itemId, Keywords[3]) && !Contains(itemId, Keywords[4]) && !Contains(itemId, Keywords[5]);
    OccursInFileName(itemId, tail, "main");
    OccursInFileName(itemId, tail, "detail");
    OccursInFileName(itemId, tail, "back");
    OccursInFileName(itemId, tail, "side");
    OccursInFileName(itemId, tail, "accessories");
    OccursInFileName(itemId, tail, "full");
    FileNameType(i / 2, Extensions[i % 2]);
  }
}

=== FILE: compression.dfy ===
/** The upload-size rules of the client-side image compressor
    (`src/lib/utils/imageCompression.ts`): when a file needs compressing,
    and which options a file of a given size is compressed with.

    Sizes are byte counts. Qualities are kept in tenths (`0.8` is 8). The
    size in MiB is a division by a power of two, which binary floating point
    computes exactly, so it is modelled with `real`. */
module Compression {
  import opened Wrappers

  /** One mebibyte, `1024 * 1024`. */
  const MiB: nat := 1_048_576

  /** The default of `shouldCompressImage`'s `maxSizeMB` parameter. */
  const DefaultMaxSizeMB: real := 2.0

  /** `shouldCompressImage(file, maxSizeMB)`: strictly larger than the limit. */
  predicate ShouldCompressImage(size: nat, maxSizeMB: real) {
    size as real > maxSizeMB * 1024.0 * 1024.0
  }

  /** Under the default limit a file is compressed exactly when it has more
      than 2 097 152 bytes: a file of exactly 2 MiB is left alone. */
  lemma DefaultThreshold(size: nat)
    ensures ShouldCompressImage(size, DefaultMaxSizeMB) <==> size > 2 * MiB
    ensures !ShouldCompressImage(2 * MiB, DefaultMaxSizeMB) && ShouldCompressImage(2 * MiB + 1, DefaultMaxSizeMB)
  {
  }

  /** The output formats a canvas may be asked for. */
  datatype Format = Jpeg | Webp | Png

  /** `CompressionOptions`: every field may be left out. */
  datatype CompressionOptions = CompressionOptions(
    quality: Option<nat>,
    maxWidth: Option<nat>,
    maxHeight: Option<nat>,
    format: Option<Format>)

  /** The defaults `compressImage` fills in for the fields left out. */
  const DefaultQuality: nat := 8
  const DefaultMaxWidth: nat := 1920
  const DefaultMaxHeight: nat := 1080

  /** The options `compressImage` actually uses once the defaults are applied. */
  datatype Settings = Settings(quality: nat, maxWidth: nat, maxHeight: nat, format: Format)

  function Effective(o: CompressionOptions): Settings {
    Settings(o.quality.GetOr(DefaultQuality), o.maxWidth.GetOr(DefaultMaxWidth),
             o.maxHeight.GetOr(DefaultMaxHeight), o.format.GetOr(Jpeg))
  }

  function Full(quality: nat, maxWidth: nat, maxHeight: nat): CompressionOptions {
    CompressionOptions(Some(quality), Some(maxWidth), Some(maxHeight), Some(Jpeg))
  }

  /** `getOptimalCompressionOptions(file)`: four tiers on the size in MiB,
      each boundary strict, so a size exactly on a boundary falls to the
      lower tier. */
  function OptimalOptions(size: nat): (o: CompressionOptions)
    ensures o.quality.Some? && o.maxWidth.Some? && o.maxHeight.Some? && o.format == Some(Jpeg)
  {
    var sizeMB := size as real / (1024.0 * 1024.0);
    if sizeMB > 5.0 then Full(6, 1600, 900)
    else if sizeMB > 2.0 then Full(7, DefaultMaxWidth, DefaultMaxHeight)
    else if sizeMB > 1.0 then Full(8, DefaultMaxWidth, DefaultMaxHeight)
    else Full(9, DefaultMaxWidth, DefaultMaxHeight)
  }

  /** The tier of a size, decided on whole bytes. */
  function QualityByBytes(size: nat): nat {
    if size > 5 * MiB then 6
    else if size > 2 * MiB then 7
    else if size > MiB then 8
    else 9
  }

  /** The MiB comparisons are the byte comparisons against 5, 2 and 1 MiB,
      and only the largest tier shrinks the bounding box, to 1600 by 900. */
  lemma OptimalOptionsByBytes(size: nat)
    ensures OptimalOptions(size).quality == Some(QualityByBytes(size))
    ensures size > 5 * MiB ==> OptimalOptions(size).maxWidth == Some(1600) && OptimalOptions(size).maxHeight == Some(900)
    ensures size <= 5 * MiB ==> OptimalOptions(size).maxWidth == Some(DefaultMaxWidth) &&
                                OptimalOptions(size).maxHeight == Some(DefaultMaxHeight)
  {
  }

  /** A larger file never gets a higher quality. */
  lemma QualityNonIncreasing(small: nat, large: nat)
    requires small <= large
    ensures OptimalOptions(large).quality.value <= OptimalOptions(small).quality.value
  {
  }

  /** Whatever the size, the chosen options are complete (no default is
      filled in), JPEG, and within `compressImage`'s default 1920 by 1080
      bounding box. */
  lemma OptimalWithinDefaults(size: nat)
    ensures Effective(OptimalOptions(size)).format == Jpeg
    ensures Effective(OptimalOptions(size)).maxWidth <= DefaultMaxWidth
    ensures Effective(OptimalOptions(size)).maxHeight <= DefaultMaxHeight
    ensures 6 <= Effective(OptimalOptions(size)).quality <= 9
  {
  }

  /** A file that needs no compression under the default limit would be
      given quality 0.8 or 0.9, never one of the lower ones. */
  lemma SmallFilesKeepHighQuality(size: nat)
    requires !ShouldCompressImage(size, DefaultMaxSizeMB)
    ensures OptimalOptions(size).quality == Some(8) || OptimalOptions(size).quality == Some(9)
  {
  }
}

=== FILE: i18n.dfy ===
/** The Thai i18n helpers (`src/lib/i18n/index.ts`): table lookup with key
    fallback, nested lookup with sub-key fallback, Buddhist-era dates and
    relative times.

    Date parsing, the local time zone and the clock are inputs: a date is
    given by its epoch milliseconds and its already extracted local day,
    month index and year, and "now" is a millisecond argument. */
module I18n {
  import opened Wrappers
  import opened Text
  import Brainstorm
  import Json

  /** A translation-table entry: a string, or a sub-table such as the icons. */
  datatype Entry = Str(s: string) | Nested(m: map<string, string>)

  /** The labels of the board's statuses. */
  const StatusLabels: map<string, Entry> := map[
    "requested" := Str("ขอแล้ว"),
    "in-review" := Str("กำลังพิจารณา"),
    "approved" := Str("อนุมัติแล้ว"),
    "in-progress" := Str("กำลังดำเนินการ"),
    "completed" := Str("เสร็จสิ้น"),
    "rejected" := Str("ปฏิเสธ")
  ]

  /** The labels of the categories. */
  const CategoryLabels: map<string, Entry> := map[
    "ui" := Str("UI/ดีไซน์"),
    "feature" := Str("คุณสมบัติใหม่"),
    "improvement" := Str("การปรับปรุง"),
    "bug" := Str("แก้ไขบัก"),
    "other" := Str("อื่นๆ")
  ]

  /** The labels of the priorities. */
  const PriorityLabels: map<string, Entry> := map[
    "low" := Str("ต่ำ"),
    "medium" := Str("ปานกลาง"),
    "high" := Str("สูง"),
    "critical" := Str("วิกฤต")
  ]

  /** The icon sub-tables. */
  const IconTables: map<string, Entry> := map[
    "categoryIcons" := Nested(CategoryIcons),
    "priorityIcons" := Nested(PriorityIcons)
  ]

  /** The part of `thaiTranslations` the board's enumerations use; no key
      occurs in two groups. */
  const ThaiTranslations: map<string, Entry> := StatusLabels + CategoryLabels + PriorityLabels + IconTables

  /** JavaScript truthiness of a table value: a sub-table is an object, a
      string is truthy exactly when its JSON form is. */
  predicate Truthy(e: Entry) {
    e.Nested? || Json.Truthy(Json.JStr(e.s))
  }

  /** `t(key)`: `table[key] || key`, the table value when it is truthy and
      otherwise the key itself. */
  function T(table: map<string, Entry>, key: string): (r: Entry)
    ensures r == Str(key) || (key in table && r == table[key] && Truthy(r))
    ensures key in table && Truthy(table[key]) ==> r == table[key]
  {
    if key in table && Truthy(table[key]) then table[key] else Str(key)
  }

  /** `getNestedTranslation(key, subKey)`: the sub-table's value when `key`
      names a sub-table holding `subKey`, and `subKey` itself otherwise. */
  function GetNested(table: map<string, Entry>, key: string, subKey: string): (r: string)
    ensures r == subKey || (key in table && table[key].Nested? && subKey in table[key].m && r == table[key].m[subKey])
    ensures key in table && table[key].Nested? && subKey in table[key].m ==> r == table[key].m[subKey]
  {
    if key in table && table[key].Nested? && subKey in table[key].m then table[key].m[subKey] else subKey
  }

  /** `key` has a non-empty string in the table, so `t(key)` is that
      string and not the key itself. */
  predicate Translated(key: string) {
    key in ThaiTranslations && ThaiTranslations[key].Str? && ThaiTranslations[key].s != ""
  }

  /** Every label group holds only non-empty strings. */
  lemma GroupsNonEmpty()
    ensures forall k :: k in StatusLabels ==> StatusLabels[k].Str? && StatusLabels[k].s != ""
    ensures forall k :: k in CategoryLabels ==> CategoryLabels[k].Str? && CategoryLabels[k].s != ""
    ensures forall k :: k in PriorityLabels ==> PriorityLabels[k].Str? && PriorityLabels[k].s != ""
  {
  }

  /** No key occurs in two groups. */
  lemma StatusKeysOwn(k: string)
    requires k in StatusLabels
    ensures k !in CategoryLabels && k !in PriorityLabels && k !in IconTables
  {
    StatusNotCategory(k);
    StatusNotPriority(k);
    assert |k| < |"categoryIcons"| == |"priorityIcons"|;
  }

  lemma StatusNotCategory(k: string)
    requires k in StatusLabels
    ensures k !in CategoryLabels
  {
  }

  lemma StatusNotPriority(k: string)
    requires k in StatusLabels
    ensures k !in PriorityLabels
  {
  }

  lemma CategoryKeysOwn(k: string)
    requires k in CategoryLabels
    ensures k !in PriorityLabels && k !in IconTables
  {
  }

  lemma PriorityKeysOwn(k: string)
    requires k in PriorityLabels
    ensures k !in IconTables
  {
    assert |k| < |"categoryIcons"| == |"priorityIcons"|;
  }

  /** A key held by the first of four maps only is looked up there in their union. */
  lemma UnionLookupFirst(a: map<string, Entry>, b: map<string, Entry>, c: map<string, Entry>,
                         d: map<string, Entry>, k: string)
    requires k in a && k !in b && k !in c && k !in d
    ensures k in a + b + c + d && (a + b + c + d)[k] == a[k]
  {
  }

  /** The table entry of a status label is that label. */
  lemma StatusEntry(key: string)
    requires key in StatusLabels
    ensures key in ThaiTranslations && ThaiTranslations[key] == StatusLabels[key]
  {
    StatusKeysOwn(key);
    UnionLookupFirst(StatusLabels, CategoryLabels, PriorityLabels, IconTables, key);
  }

  /** The table entry of a category label is that label. */
  lemma CategoryEntry(key: string)
    requires key in CategoryLabels
    ensures key in ThaiTranslations && ThaiTranslations[key] == CategoryLabels[key]
  {
    var none: map<string, Entry> := map[];
    CategoryKeysOwn(key);
    UnionLookupFirst(CategoryLabels, PriorityLabels, IconTables, none, key);
  }

  /** The table entry of a priority label is that label. */
  lemma PriorityEntry(key: string)
    requires key in PriorityLabels
    ensures key in ThaiTranslations && ThaiTranslations[key] == PriorityLabels[key]
  {
    PriorityKeysOwn(key);
  }

  /** A label of any group is translated: its key occurs in no other
      group, so the table holds that group's non-empty label string. */
  lemma LabelTranslated(key: string)
    requires key in StatusLabels || key in CategoryLabels || key in PriorityLabels
    ensures Translated(key)
    ensures T(ThaiTranslations, key) == ThaiTranslations[key]
  {
    GroupsNonEmpty();
    if key in StatusLabels {
      StatusEntry(key);
    } else if key in CategoryLabels {
      CategoryEntry(key);
    } else {
      PriorityEntry(key);
    }
  }

  lemma StatusKey(st: Brainstorm.Status)
    ensures st.Name() in StatusLabels
  {
  }

  lemma CategoryKey(c: Brainstorm.Category)
    ensures c.Name() in CategoryLabels
  {
  }

  lemma PriorityKey(p: Brainstorm.Priority)
    ensures p.Name() in PriorityLabels
  {
  }

  /** Every status, category and priority the board shows has a Thai
      label, so `t` never echoes the raw value for them. */
  lemma EnumLabelsTranslated(st: Brainstorm.Status, c: Brainstorm.Category, p: Brainstorm.Priority)
    ensures Translated(st.Name()) && T(ThaiTranslations, st.Name()) == ThaiTranslations[st.Name()]
    ensures Translated(c.Name()) && T(ThaiTranslations, c.Name()) == ThaiTranslations[c.Name()]
    ensures Translated(p.Name()) && T(ThaiTranslations, p.Name()) == ThaiTranslations[p.Name()]
  {
    StatusKey(st);
    LabelTranslated(st.Name());
    CategoryKey(c);
    LabelTranslated(c.Name());
    PriorityKey(p);
    LabelTranslated(p.Name());
  }

  const CategoryIcons: map<string, string> :=
    map["ui" := "🎨", "feature" := "✨", "improvement" := "📈", "bug" := "🐛", "other" := "💡"]
  const PriorityIcons: map<string, string> :=
    map["low" := "🟢", "medium" := "🟡", "high" := "🟠", "critical" := "🔴"]

  /** The table's two icon entries are the icon sub-tables. */
  lemma IconEntries()
    ensures "categoryIcons" in ThaiTranslations && ThaiTranslations["categoryIcons"] == Nested(CategoryIcons)
    ensures "priorityIcons" in ThaiTranslations && ThaiTranslations["priorityIcons"] == Nested(PriorityIcons)
  {
    assert ThaiTranslations["categoryIcons"] == IconTables["categoryIcons"];
    assert ThaiTranslations["priorityIcons"] == IconTables["priorityIcons"];
  }

  /** Every category has an icon, and no icon spells its category's name. */
  lemma CategoryIconHeld(c: Brainstorm.Category)
    ensures c.Name() in CategoryIcons && CategoryIcons[c.Name()] != c.Name()
  {
  }

  /** Every priority has an icon, and no icon spells its priority's name. */
  lemma PriorityIconHeld(p: Brainstorm.Priority)
    ensures p.Name() in PriorityIcons && PriorityIcons[p.Name()] != p.Name()
  {
  }

  /** The icon sub-table holds an icon for every category, so the nested
      lookup returns the icon and never echoes the category name. */
  lemma CategoryIconFound(c: Brainstorm.Category)
    ensures GetNested(ThaiTranslations, "categoryIcons", c.Name()) == CategoryIcons[c.Name()]
    ensures GetNested(ThaiTranslations, "categoryIcons", c.Name()) != c.Name()
  {
    IconEntries();
    CategoryIconHeld(c);
  }

  /** Likewise for every priority. */
  lemma PriorityIconFound(p: Brainstorm.Priority)
    ensures GetNested(ThaiTranslations, "priorityIcons", p.Name()) == PriorityIcons[p.Name()]
    ensures GetNested(ThaiTranslations, "priorityIcons", p.Name()) != p.Name()
  {
    IconEntries();
    PriorityIconHeld(p);
  }

  /** Month names, indexed like `Date.prototype.getMonth`. */
  const ThaiMonths: seq<string> := [
    "มกราคม", "กุมภาพันธ์", "มีนาคม", "เมษายน", "พฤษภาคม", "มิถุนายน",
    "กรกฎาคม", "สิงหาคม", "กันยายน", "ตุลาคม", "พฤศจิกายน", "ธันวาคม"
  ]

  type MonthIndex = m: int | 0 <= m < 12

  /** What `new Date(dateString)` yields, read in the local time zone: an
      invalid date, or a time value (epoch milliseconds) with its calendar
      day, month index and Gregorian year. */
  datatype LocalDate = InvalidDate | LocalDate(timeMs: int, day: int, month: MonthIndex, year: int)

  /** The Buddhist Era runs 543 years ahead of the Gregorian calendar. */
  const BuddhistEraOffset := 543

  /** `formatThaiDate`: "day month-name year+543". An invalid date prints
      `NaN`, indexes the month list at `NaN` (`undefined`) and adds 543 to
      `NaN`. */
  function FormatThaiDate(d: LocalDate): string {
    match d
    case InvalidDate => "NaN undefined NaN"
    case LocalDate(_, day, month, year) =>
      IntToString(day) + " " + ThaiMonths[month] + " " + IntToString(year + BuddhistEraOffset)
  }

  /** Cuts `s` at every `sep`, keeping empty pieces, as `s.split(sep)`. */
  function Split(s: string, sep: char): (parts: seq<string>)
    ensures |parts| >= 1
    decreases |s|
  {
    if s == [] then [""]
    else if s[0] == sep then [""] + Split(s[1..], sep)
    else
      var rest := Split(s[1..], sep);
      [[s[0]] + rest[0]] + rest[1..]
  }

  /** A piece free of the separator is not cut. */
  lemma {:induction false} SplitWhole(a: string, sep: char)
    requires sep !in a
    ensures Split(a, sep) == [a]
    decreases |a|
  {
    if a != [] {
      SplitWhole(a[1..], sep);
      assert [a[0]] + a[1..] == a;
    }
  }

  /** Cutting a separator-free head off at the first separator. */
  lemma {:induction false} SplitJoin(a: string, sep: char, b: string)
    requires sep !in a
    ensures Split(a + [sep] + b, sep) == [a] + Split(b, sep)
    decreases |a|
  {
    var s := a + [sep] + b;
    if a == [] {
      assert s[1..] == b;
    } else {
      assert s[1..] == a[1..] + [sep] + b;
      SplitJoin(a[1..], sep, b);
      assert [a[0]] + a[1..] == a;
    }
  }

  /** The position of `x` in `xs`, the first one when it occurs twice. */
  function IndexOf(xs: seq<string>, x: string): (r: Option<nat>)
    ensures r.Some? ==> r.value < |xs| && xs[r.value] == x
    ensures r.Some? ==> forall j :: 0 <= j < r.value ==> xs[j] != x
    ensures r.None? <==> x !in xs
  {
    if xs == [] then None
    else if xs[0] == x then Some(0)
    else match IndexOf(xs[1..], x)
      case None => None
      case Some(i) => Some(i + 1)
  }

  /** Reads "day month-name year" back into the Gregorian calendar fields. */
  function ParseThaiDate(s: string): Option<(int, MonthIndex, int)> {
    var parts := Split(s, ' ');
    if |parts| != 3 then None
    else match (ParseInt(parts[0]), IndexOf(ThaiMonths, parts[1]), ParseInt(parts[2]))
      case (Some(day), Some(m), Some(be)) => if m < 12 then Some((day, m as MonthIndex, be - BuddhistEraOffset)) else None
      case _ => None
  }

  /** No two months share a name. */
  lemma MonthsDistinct()
    ensures forall i, j :: 0 <= i < j < |ThaiMonths| ==> ThaiMonths[i] != ThaiMonths[j]
  {
  }

  /** A month's name is found at its own index. */
  lemma MonthNameIndex(m: MonthIndex)
    ensures IndexOf(ThaiMonths, ThaiMonths[m]) == Some(m as nat)
  {
    MonthsDistinct();
  }

  /** No month name contains a space. */
  lemma MonthNamesSpaceFree(m: MonthIndex)
    ensures ' ' !in ThaiMonths[m]
  {
  }

  /** Three space-free words joined by single spaces split back into them. */
  lemma SplitThree(a: string, b: string, c: string)
    requires ' ' !in a && ' ' !in b && ' ' !in c
    ensures Split(a + " " + b + " " + c, ' ') == [a, b, c]
  {
    assert a + " " + b + " " + c == a + [' '] + (b + [' '] + c);
    SplitJoin(a, ' ', b + [' '] + c);
    SplitJoin(b, ' ', c);
    SplitWhole(c, ' ');
  }

  /** A valid date's text is read back into its day, month and Gregorian
      year: the format loses nothing. */
  lemma FormatThaiDateRoundTrip(d: LocalDate)
    requires d.LocalDate?
    ensures ParseThaiDate(FormatThaiDate(d)) == Some((d.day, d.month, d.year))
  {
    var dd := IntToString(d.day);
    var mm := ThaiMonths[d.month];
    var yy := IntToString(d.year + BuddhistEraOffset);
    assert FormatThaiDate(d) == dd + " " + mm + " " + yy;
    MonthNamesSpaceFree(d.month);
    SplitThree(dd, mm, yy);
    var parts := Split(FormatThaiDate(d), ' ');
    assert parts[0] == dd && parts[1] == mm && parts[2] == yy;
    IntToStringRoundTrip(d.day);
    assert ParseInt(parts[0]) == Some(d.day);
    IntToStringRoundTrip(d.year + BuddhistEraOffset);
    assert ParseInt(parts[2]) == Some(d.year + BuddhistEraOffset);
    MonthNameIndex(d.month);
    assert IndexOf(ThaiMonths, parts[1]) == Some(d.month as nat);
  }

  /** The text printed for an invalid date reads back as no date. */
  lemma InvalidDateUnreadable()
    ensures ParseThaiDate(FormatThaiDate(InvalidDate)) == None
  {
  }

  const JustNowText := "เมื่อสักครู่"
  const MinutesAgoText := " นาทีที่แล้ว"
  const HoursAgoText := " ชั่วโมงที่แล้ว"
  const DaysAgoText := " วันที่แล้ว"

  /** `formatThaiRelativeTime` at the instant `nowMs`. The differences are
      floored in steps (milliseconds to minutes, to hours, to days); a date
      a week old or more, and an invalid date (every comparison with `NaN`
      is false), is printed as an absolute date. */
  function FormatThaiRelativeTime(nowMs: int, d: LocalDate): string {
    match d
    case InvalidDate => FormatThaiDate(d)
    case LocalDate(timeMs, _, _, _) =>
      var diffInMs := nowMs - timeMs;
      var diffInMinutes := diffInMs / (1000 * 60);
      var diffInHours := diffInMinutes / 60;
      var diffInDays := diffInHours / 24;
      if diffInMinutes < 1 then JustNowText
      else if diffInMinutes < 60 then IntToString(diffInMinutes) + MinutesAgoText
      else if diffInHours < 24 then IntToString(diffInHours) + HoursAgoText
      else if diffInDays < 7 then IntToString(diffInDays) + DaysAgoText
      else FormatThaiDate(d)
  }

  const MinuteMs := 60_000
  const HourMs := 3_600_000
  const DayMs := 86_400_000
  const WeekMs := 604_800_000

  /** How long ago something happened, in the largest whole unit below a week. */
  datatype Age = JustNow | MinutesAgo(n: int) | HoursAgo(n: int) | DaysAgo(n: int) | Older

  /** The age of a millisecond difference, measured directly against the
      unit lengths in milliseconds. */
  function AgeOf(diffMs: int): (a: Age)
    ensures a.MinutesAgo? ==> 1 <= a.n < 60
    ensures a.HoursAgo? ==> 1 <= a.n < 24
    ensures a.DaysAgo? ==> 1 <= a.n < 7
    ensures a.JustNow? <==> diffMs < MinuteMs
    ensures a.Older? <==> diffMs >= WeekMs
  {
    if diffMs < MinuteMs then JustNow
    else if diffMs < HourMs then MinutesAgo(diffMs / MinuteMs)
    else if diffMs < DayMs then HoursAgo(diffMs / HourMs)
    else if diffMs < WeekMs then DaysAgo(diffMs / DayMs)
    else Older
  }

  /** The text shown for an age. */
  function AgeText(a: Age, d: LocalDate): string {
    match a
    case JustNow => JustNowText
    case MinutesAgo(n) => IntToString(n) + MinutesAgoText
    case HoursAgo(n) => IntToString(n) + HoursAgoText
    case DaysAgo(n) => IntToString(n) + DaysAgoText
    case Older => FormatThaiDate(d)
  }

  /** Whole minutes floored to hours are the milliseconds floored to hours. */
  lemma MinutesToHours(ms: int)
    ensures (ms / MinuteMs) / 60 == ms / HourMs
  {
  }

  /** Whole hours floored to days are the milliseconds floored to days. */
  lemma HoursToDays(ms: int)
    ensures (ms / HourMs) / 24 == ms / DayMs
  {
  }

  /** For a valid date, the stepwise-floored text is the text of the age
      measured directly in milliseconds: the minute, hour and day
      thresholds are 60 000, 3 600 000, 86 400 000 and 604 800 000 ms. */
  lemma RelativeTimeByAge(nowMs: int, d: LocalDate)
    requires d.LocalDate?
    ensures FormatThaiRelativeTime(nowMs, d) == AgeText(AgeOf(nowMs - d.timeMs), d)
  {
    var diff := nowMs - d.timeMs;
    MinutesToHours(diff);
    HoursToDays(diff);
    assert diff / MinuteMs < 1 <==> diff < MinuteMs;
    assert diff / MinuteMs < 60 <==> diff < HourMs;
    assert diff / HourMs < 24 <==> diff < DayMs;
    assert diff / DayMs < 7 <==> diff < WeekMs;
  }

  /** An invalid date, and a date a week old or older, reads as an absolute date. */
  lemma RelativeFallsBackToDate(nowMs: int, d: LocalDate)
    ensures d.InvalidDate? || nowMs - d.timeMs >= WeekMs ==>
      FormatThaiRelativeTime(nowMs, d) == FormatThaiDate(d)
    ensures d.LocalDate? && nowMs - d.timeMs < MinuteMs ==> FormatThaiRelativeTime(nowMs, d) == JustNowText
  {
    if d.LocalDate? {
      RelativeTimeByAge(nowMs, d);
    }
  }
}

=== FILE: json.dfy ===
/** Parsed JSON request bodies, with the JavaScript operations the route
    handlers apply to them: truthiness and property access. */
module Json {
  import opened Wrappers

  /** A value `request.json()` can produce. Numbers are integers here. */
  datatype Json =
    | JNull
    | JBool(b: bool)
    | JNum(n: int)
    | JStr(s: string)
    | JArr(items: seq<Json>)
    | JObj(fields: map<string, Json>)

  /** JavaScript truthiness: `null`, `false`, `0` and `""` are falsy. */
  predicate Truthy(j: Json) {
    match j
    case JNull => false
    case JBool(b) => b
    case JNum(n) => n != 0
    case JStr(s) => s != ""
    case _ => true
  }

  /** `value.name` on a non-null value: an object's own property, and
      `undefined` (None) on every other kind of value. The handlers only
      read names that no built-in prototype defines. */
  function Field(j: Json, name: string): (r: Option<Json>)
    requires j != JNull
    ensures r.Some? ==> j.JObj? && name in j.fields && r.value == j.fields[name]
    ensures j.JObj? && name in j.fields ==> r.Some?
  {
    match j
    case JObj(fields) => if name in fields then Some(fields[name]) else None
    case _ => None
  }
}

=== FILE: sw_cache.dfy ===
/** The service worker's offline cache (`static/sw.js`): request routing,
    the two cache-first strategies, install seeding and activate pruning.

    Browser effects are inputs: the network answer to a request is a
    `FetchOutcome` argument, the worker's own origin is a string argument,
    and the browser's cache storage is an explicit `Storage` value that every
    operation takes and returns. */
module ServiceWorker {
  import opened Wrappers
  import opened Text

  // ---------------------------------------------------------------------
  // Constants

  /** The three cache names of this worker version. */
  const CacheName := "macosplay-cache-v1"
  const StaticCacheName := "macosplay-static-v1"
  const ImageCacheName := "macosplay-images-v1"

  /** The app-shell files seeded at install, as paths on the worker's origin. */
  const StaticFiles: seq<string> := ["/", "/offline.html", "/favicon.png"]

  const PlaceholderPath := "/images/placeholder.png"
  const OfflinePath := "/offline.html"

  /** Path extensions (compared case-insensitively) that make a request an image request. */
  const ImageExtensions: set<string> := {"jpg", "jpeg", "png", "gif", "webp", "avif"}

  /** Host-name fragments of the remote image storage. */
  const ImageHostFragments: seq<string> := ["file.macosplay.com", "pocketbase"]

  predicate IsCurrentCacheName(name: string) {
    name == CacheName || name == StaticCacheName || name == ImageCacheName
  }

  /** A relative path such as "/offline.html" resolved against the worker's origin. */
  function Resolve(origin: string, path: string): string {
    origin + path
  }

  // ---------------------------------------------------------------------
  // URL scheme test (`isCacheableUrl`, defined by the worker but unused)

  /** The scheme of a URL: the text before its first ':', if it has one. */
  function SchemeOf(url: string): Option<string>
    decreases |url|
  {
    if url == [] then None
    else if url[0] == ':' then Some("")
    else match SchemeOf(url[1..])
      case None => None
      case Some(rest) => Some([url[0]] + rest)
  }

  lemma {:induction false} SchemeOfPrefix(p: string, rest: string)
    requires ':' !in p
    ensures SchemeOf(p + [':'] + rest) == Some(p)
    decreases |p|
  {
    if p != [] {
      assert (p + [':'] + rest)[1..] == p[1..] + [':'] + rest;
      SchemeOfPrefix(p[1..], rest);
      assert [p[0]] + p[1..] == p;
    }
  }

  lemma {:induction false} SchemeOfSplits(url: string, p: string)
    requires SchemeOf(url) == Some(p)
    ensures IsPrefix(p + [':'], url)
    decreases |url|
  {
    if url[0] != ':' {
      SchemeOfSplits(url[1..], p[1..]);
    }
  }

  /** Starting with "http:" or "https:" is having scheme `http` or `https`. */
  lemma HttpPrefixIsScheme(url: string)
    ensures (IsPrefix("http:", url) || IsPrefix("https:", url)) <==>
      SchemeOf(url) == Some("http") || SchemeOf(url) == Some("https")
  {
    if IsPrefix("http:", url) {
      assert url == "http" + [':'] + url[5..];
      SchemeOfPrefix("http", url[5..]);
    } else if IsPrefix("https:", url) {
      assert url == "https" + [':'] + url[6..];
      SchemeOfPrefix("https", url[6..]);
    }
    if SchemeOf(url) == Some("http") {
      SchemeOfSplits(url, "http");
    } else if SchemeOf(url) == Some("https") {
      SchemeOfSplits(url, "https");
    }
  }

  /** `isCacheableUrl`: the URL's scheme is exactly `http` or `https`. */
  function IsCacheableUrl(url: string): (r: bool)
    ensures r <==> SchemeOf(url) == Some("http") || SchemeOf(url) == Some("https")
  {
    HttpPrefixIsScheme(url);
    IsPrefix("http:", url) || IsPrefix("https:", url)
  }

  // ---------------------------------------------------------------------
  // Cache storage

  datatype Response = Response(status: int, body: string) {
    /** `response.ok` */
    predicate Ok() {
      200 <= status <= 299
    }
  }

  /** One named cache: request URL to stored response. */
  datatype Partition = Partition(name: string, entries: map<string, Response>)

  /** The browser's cache storage, partitions in creation order (the order
      `caches.keys()` lists them and `caches.match` searches them). */
  type Storage = seq<Partition>

  predicate WellFormed(s: Storage) {
    forall i, j :: 0 <= i < j < |s| ==> s[i].name != s[j].name
  }

  /** The entries of the partition called `name`, if it exists. */
  function Lookup(s: Storage, name: string): Option<map<string, Response>>
    decreases |s|
  {
    if s == [] then None
    else if s[0].name == name then Some(s[0].entries)
    else Lookup(s[1..], name)
  }

  lemma {:induction false} LookupAbsent(s: Storage, name: string)
    requires Lookup(s, name).None?
    ensures forall i :: 0 <= i < |s| ==> s[i].name != name
    decreases |s|
  {
    if s != [] {
      LookupAbsent(s[1..], name);
      forall i | 1 <= i < |s| ensures s[i].name != name {
        assert s[i] == s[1..][i - 1];
      }
    }
  }

  lemma {:induction false} LookupAppend(s: Storage, p: Partition, name: string)
    ensures Lookup(s + [p], name) ==
      if Lookup(s, name).Some? then Lookup(s, name)
      else if p.name == name then Some(p.entries)
      else None
    decreases |s|
  {
    if s == [] {
      assert s + [p] == [p];
      assert Lookup([p][1..], name) == None;
    } else {
      assert (s + [p])[1..] == s[1..] + [p];
      LookupAppend(s[1..], p, name);
    }
  }

  /** `caches.match(key)`: the first partition, in creation order, holding `key`. */
  function MatchAny(s: Storage, key: string): (r: Option<Response>)
    ensures r.None? <==> forall i :: 0 <= i < |s| ==> key !in s[i].entries
    ensures r.Some? ==> exists i :: && 0 <= i < |s| && key in s[i].entries && r.value == s[i].entries[key]
                                    && forall j :: 0 <= j < i ==> key !in s[j].entries
    decreases |s|
  {
    if s == [] then None
    else if key in s[0].entries then Some(s[0].entries[key])
    else
      var r := MatchAny(s[1..], key);
      assert forall i :: 1 <= i < |s| ==> s[i] == s[1..][i - 1];
      if r.Some? then
        var i :| && 0 <= i < |s[1..]| && key in s[1..][i].entries && r.value == s[1..][i].entries[key]
                 && forall j :: 0 <= j < i ==> key !in s[1..][j].entries;
        assert key in s[i + 1].entries && r.value == s[i + 1].entries[key];
        r
      else r
  }

  lemma {:induction false} MatchAnyAppendEmpty(s: Storage, name: string, key: string)
    ensures MatchAny(s + [Partition(name, map[])], key) == MatchAny(s, key)
    decreases |s|
  {
    var p := Partition(name, map[]);
    if s == [] {
      assert s + [p] == [p];
      assert MatchAny([p][1..], key) == None;
    } else {
      assert (s + [p])[1..] == s[1..] + [p];
      MatchAnyAppendEmpty(s[1..], name, key);
    }
  }

  /** `cache.match(key)` on the partition called `name`. */
  function MatchIn(s: Storage, name: string, key: string): (r: Option<Response>)
    ensures r.Some? <==> Lookup(s, name).Some? && key in Lookup(s, name).value
    ensures r.Some? ==> r.value == Lookup(s, name).value[key]
  {
    match Lookup(s, name)
    case None => None
    case Some(e) => if key in e then Some(e[key]) else None
  }

  /** `caches.open(name)`: the partition is created, empty, when missing. */
  function Open(s: Storage, name: string): (r: Storage)
    ensures Lookup(r, name) == Some(Lookup(s, name).GetOr(map[]))
    ensures forall n :: n != name ==> Lookup(r, n) == Lookup(s, n)
    ensures forall k :: MatchAny(r, k) == MatchAny(s, k)
    ensures Lookup(s, name).Some? ==> r == s
    ensures |r| == |s| + (if Lookup(s, name).Some? then 0 else 1) && r[..|s|] == s
    ensures WellFormed(s) ==> WellFormed(r)
  {
    if Lookup(s, name).Some? then s
    else
      AppendEmptyPartition(s, name);
      s + [Partition(name, map[])]
  }

  /** Appending an empty partition for a new name adds that name and
      changes no lookup of any other name or key. */
  lemma AppendEmptyPartition(s: Storage, name: string)
    requires Lookup(s, name).None?
    ensures var r := s + [Partition(name, map[])];
      && (forall n :: Lookup(r, n) == if n == name then Some(map[]) else Lookup(s, n))
      && (forall k :: MatchAny(r, k) == MatchAny(s, k))
      && (WellFormed(s) ==> WellFormed(r))
  {
    var r := s + [Partition(name, map[])];
    forall n ensures Lookup(r, n) == if n == name then Some(map[]) else Lookup(s, n) {
      LookupAppend(s, Partition(name, map[]), n);
    }
    forall k ensures MatchAny(r, k) == MatchAny(s, k) {
      MatchAnyAppendEmpty(s, name, k);
    }
    LookupAbsent(s, name);
  }

  /** Replaces the entries of the partition called `name`; a storage
      without that partition is returned unchanged. */
  function SetEntries(s: Storage, name: string, e: map<string, Response>): (r: Storage)
    ensures |r| == |s| && forall i :: 0 <= i < |s| ==> r[i].name == s[i].name
    ensures Lookup(r, name) == if Lookup(s, name).Some? then Some(e) else None
    ensures forall n :: n != name ==> Lookup(r, n) == Lookup(s, n)
    ensures WellFormed(s) ==> WellFormed(r)
    decreases |s|
  {
    if s == [] then []
    else
      var head := if s[0].name == name then Partition(name, e) else s[0];
      var rest := SetEntries(s[1..], name, e);
      var r := [head] + rest;
      LookupCons(head, rest);
      LookupCons(s[0], s[1..]);
      assert [s[0]] + s[1..] == s;
      assert forall i :: 1 <= i < |s| ==> r[i].name == s[1..][i - 1].name;
      SameNamesWellFormed(s, r);
      r
  }

  /** `Lookup` on a storage with a given first partition. */
  lemma LookupCons(p: Partition, rest: Storage)
    ensures forall n :: Lookup([p] + rest, n) == if p.name == n then Some(p.entries) else Lookup(rest, n)
  {
    assert ([p] + rest)[1..] == rest;
  }

  /** Distinct names depend only on the names, position by position. */
  lemma SameNamesWellFormed(s: Storage, r: Storage)
    requires |r| == |s| && forall i :: 0 <= i < |s| ==> r[i].name == s[i].name
    ensures WellFormed(s) ==> WellFormed(r)
  {
  }

  /** `cache.put(key, resp)` on the (already current) partition called `name`. */
  function Put(s: Storage, name: string, key: string, resp: Response): (r: Storage)
    requires Lookup(s, name).Some?
    ensures MatchIn(r, name, key) == Some(resp)
    ensures Lookup(r, name) == Some(Lookup(s, name).value[key := resp])
    ensures |r| == |s| && forall i :: 0 <= i < |s| ==> r[i].name == s[i].name
    ensures forall n :: n != name ==> Lookup(r, n) == Lookup(s, n)
    ensures WellFormed(s) ==> WellFormed(r)
  {
    SetEntries(s, name, Lookup(s, name).value[key := resp])
  }

  // ---------------------------------------------------------------------
  // Lifecycle: install and activate

  /** A fetch as the worker sees it: an HTTP response, or a thrown network error. */
  datatype FetchOutcome = Responded(response: Response) | NetworkError

  predicate FetchedOk(f: FetchOutcome) {
    f.Responded? && f.response.Ok()
  }

  datatype InstallResult = Installed(storage: Storage) | InstallFailed(storage: Storage)

  /** The static partition after `cache.addAll(StaticFiles)` succeeded:
      every seed key holds its fetched response, other keys are kept. */
  function AddAllEntries(e: map<string, Response>, keys: set<string>, net: string -> FetchOutcome): (r: map<string, Response>)
    requires forall k :: k in keys ==> net(k).Responded?
    ensures r.Keys == e.Keys + keys
    ensures forall k :: k in keys ==> r[k] == net(k).response
    ensures forall k :: k in e && k !in keys ==> r[k] == e[k]
  {
    map k | k in e.Keys + keys :: if k in keys then net(k).response else e[k]
  }

  function SeedKeys(origin: string): set<string> {
    set p | p in StaticFiles :: Resolve(origin, p)
  }

  /** The install handler: open the static partition, then add every seed
      file all-or-nothing. `net` answers the fetch of each seed URL. */
  function Install(s: Storage, origin: string, net: string -> FetchOutcome): (r: InstallResult)
    ensures r.Installed? <==> forall p :: p in StaticFiles ==> FetchedOk(net(Resolve(origin, p)))
    ensures r.Installed? ==> forall p :: p in StaticFiles ==>
      MatchIn(r.storage, StaticCacheName, Resolve(origin, p)) == Some(net(Resolve(origin, p)).response)
    ensures r.Installed? ==> forall k :: k !in SeedKeys(origin) ==>
      MatchIn(r.storage, StaticCacheName, k) == MatchIn(s, StaticCacheName, k)
    ensures r.Installed? ==> forall n :: n != StaticCacheName ==> Lookup(r.storage, n) == Lookup(s, n)
    ensures r.InstallFailed? ==> r.storage == Open(s, StaticCacheName)
    ensures r.InstallFailed? ==> forall k :: MatchAny(r.storage, k) == MatchAny(s, k)
    ensures r.InstallFailed? ==> forall n :: n != StaticCacheName ==> Lookup(r.storage, n) == Lookup(s, n)
    ensures WellFormed(s) ==> WellFormed(r.storage)
    ensures |r.storage| == |Open(s, StaticCacheName)| &&
      forall i :: 0 <= i < |r.storage| ==> r.storage[i].name == Open(s, StaticCacheName)[i].name
  {
    var current := Open(s, StaticCacheName);
    if forall p :: p in StaticFiles ==> FetchedOk(net(Resolve(origin, p))) then
      var keys := SeedKeys(origin);
      var e := AddAllEntries(Lookup(current, StaticCacheName).value, keys, net);
      Installed(SetEntries(current, StaticCacheName, e))
    else
      InstallFailed(current)
  }

  /** The activate handler: delete every partition whose name is not one of
      this version's three cache names. */
  function Activate(s: Storage): (r: Storage)
    ensures forall n :: Lookup(r, n) == if IsCurrentCacheName(n) then Lookup(s, n) else None
    ensures forall i :: 0 <= i < |r| ==> IsCurrentCacheName(r[i].name) && r[i] in s
    decreases |s|
  {
    if s == [] then []
    else
      var rest := Activate(s[1..]);
      if IsCurrentCacheName(s[0].name) then
        var r := [s[0]] + rest;
        assert r[1..] == rest;
        assert forall i :: 1 <= i < |r| ==> r[i] == rest[i - 1];
        r
      else rest
  }

  lemma TailWellFormed(s: Storage)
    requires WellFormed(s) && s != []
    ensures WellFormed(s[1..])
    ensures Lookup(s[1..], s[0].name).None?
  {
    forall i, j | 0 <= i < j < |s[1..]| ensures s[1..][i].name != s[1..][j].name {
      assert s[1..][i] == s[i + 1] && s[1..][j] == s[j + 1];
    }
    forall i | 0 <= i < |s[1..]| ensures s[1..][i].name != s[0].name {
      assert s[1..][i] == s[i + 1];
    }
    LookupMissing(s[1..], s[0].name);
  }

  lemma {:induction false} LookupMissing(s: Storage, name: string)
    requires forall i :: 0 <= i < |s| ==> s[i].name != name
    ensures Lookup(s, name).None?
    decreases |s|
  {
    if s != [] {
      assert s[0].name != name;
      forall i | 0 <= i < |s[1..]| ensures s[1..][i].name != name {
        assert s[1..][i] == s[i + 1];
      }
      LookupMissing(s[1..], name);
    }
  }

  /** Activation keeps the storage's partition names distinct. */
  lemma {:induction false} ActivateWellFormed(s: Storage)
    requires WellFormed(s)
    ensures WellFormed(Activate(s))
    decreases |s|
  {
    if s != [] {
      TailWellFormed(s);
      ActivateWellFormed(s[1..]);
      var rest := Activate(s[1..]);
      if IsCurrentCacheName(s[0].name) {
        assert Lookup(rest, s[0].name).None?;
        LookupAbsent(rest, s[0].name);
        var r := [s[0]] + rest;
        assert Activate(s) == r;
        forall i, j | 0 <= i < j < |r| ensures r[i].name != r[j].name {
          assert r[j] == rest[j - 1];
          if i > 0 {
            assert r[i] == rest[i - 1];
          }
        }
      }
    }
  }

  /** A key that `caches.match` finds after activation was already cached before it. */
  lemma {:induction false} ActivateOnlyForgets(s: Storage, key: string)
    requires MatchAny(Activate(s), key).Some?
    ensures MatchAny(s, key).Some?
    decreases |s|
  {
    if key !in s[0].entries {
      var rest := Activate(s[1..]);
      if IsCurrentCacheName(s[0].name) {
        assert Activate(s) == [s[0]] + rest;
        assert ([s[0]] + rest)[1..] == rest;
      }
      ActivateOnlyForgets(s[1..], key);
    }
  }

  /** Activation keeps creation order: when the first partition holding
      `key` bears a current name, `caches.match(key)` answers the same
      afterwards. */
  lemma {:induction false} ActivateKeepsAnswer(s: Storage, key: string)
    requires forall i :: 0 <= i < |s| && key in s[i].entries && (forall j :: 0 <= j < i ==> key !in s[j].entries) ==>
      IsCurrentCacheName(s[i].name)
    ensures MatchAny(Activate(s), key) == MatchAny(s, key)
    decreases |s|
  {
    if s != [] {
      var rest := Activate(s[1..]);
      if key in s[0].entries {
        assert IsCurrentCacheName(s[0].name);
        assert Activate(s) == [s[0]] + rest;
      } else {
        forall i | 0 <= i < |s[1..]| && key in s[1..][i].entries && (forall j :: 0 <= j < i ==> key !in s[1..][j].entries)
          ensures IsCurrentCacheName(s[1..][i].name)
        {
          assert s[1..][i] == s[i + 1];
          forall j | 0 <= j < i + 1 ensures key !in s[j].entries {
            if j > 0 {
              assert s[j] == s[1..][j - 1];
            }
          }
        }
        ActivateKeepsAnswer(s[1..], key);
        if IsCurrentCacheName(s[0].name) {
          assert Activate(s) == [s[0]] + rest;
          assert ([s[0]] + rest)[1..] == rest;
        }
      }
    }
  }

  // ---------------------------------------------------------------------
  // Fetch interception

  /** The parts of an intercepted request the worker reads. `origin`,
      `hostname` and `pathname` are the URL parser's view of `url`, which
      is also the cache key. */
  datatype Request = Request(
    httpMethod: string,
    url: string,
    destination: string,
    mode: string,
    origin: string,
    hostname: string,
    pathname: string)

  datatype Route = Unhandled | ImageRoute | StaticRoute

  /** The path ends in ".jpg", ".jpeg", ".png", ".gif", ".webp" or ".avif",
      ignoring ASCII case. */
  predicate HasImageExtension(pathname: string) {
    exists ext :: ext in ImageExtensions && IsSuffix("." + ext, LowerAscii(pathname))
  }

  predicate IsImageRequest(req: Request) {
    req.destination == "image" || HasImageExtension(req.pathname)
  }

  predicate IsImageHost(hostname: string) {
    exists f :: f in ImageHostFragments && Contains(hostname, f)
  }

  /** The fetch listener's routing decision. The image test comes before the
      same-origin test, so a same-origin image goes to the image strategy. */
  function RouteOf(req: Request, origin: string): (r: Route)
    ensures r == StaticRoute <==>
      req.httpMethod == "GET" && !IsImageRequest(req) && req.origin == origin
    ensures r == ImageRoute <==>
      req.httpMethod == "GET" && (IsImageRequest(req) || (req.origin != origin && IsImageHost(req.hostname)))
    ensures r == Unhandled <==>
      req.httpMethod != "GET" || (!IsImageRequest(req) && req.origin != origin && !IsImageHost(req.hostname))
  {
    if req.httpMethod != "GET" then Unhandled
    else if IsImageRequest(req) then ImageRoute
    else if req.origin == origin then StaticRoute
    else if Contains(req.hostname, "file.macosplay.com") || Contains(req.hostname, "pocketbase") then ImageRoute
    else Unhandled
  }

  /** What a strategy produced: the response handed to `respondWith` and
      the cache storage afterwards. */
  datatype Served = Served(response: Response, storage: Storage)

  const ImageNotAvailable := Response(404, "Image not available")
  const ResourceNotAvailable := Response(404, "Resource not available")

  /** `handleImageRequest`: cache-first on the image partition; an ok
      network answer is stored; a non-ok one is passed through uncached; only
      a network error falls back to the cached placeholder or a 404. */
  function HandleImageRequest(s: Storage, origin: string, req: Request, net: FetchOutcome): (r: Served)
    ensures MatchIn(s, ImageCacheName, req.url).Some? ==>
      r == Served(MatchIn(s, ImageCacheName, req.url).value, s)
    ensures MatchIn(s, ImageCacheName, req.url).None? && net.Responded? ==> r.response == net.response
    ensures MatchIn(s, ImageCacheName, req.url).None? && FetchedOk(net) ==>
      MatchIn(r.storage, ImageCacheName, req.url) == Some(net.response)
    ensures MatchIn(s, ImageCacheName, req.url).None? && FetchedOk(net) ==>
      Lookup(r.storage, ImageCacheName) == Some(Lookup(Open(s, ImageCacheName), ImageCacheName).value[req.url := net.response])
    ensures MatchIn(s, ImageCacheName, req.url).None? && !FetchedOk(net) ==> r.storage == Open(s, ImageCacheName)
    ensures MatchIn(s, ImageCacheName, req.url).None? && net.NetworkError? ==>
      r.response == MatchAny(s, Resolve(origin, PlaceholderPath)).GetOr(ImageNotAvailable)
    ensures forall n :: n != ImageCacheName ==> Lookup(r.storage, n) == Lookup(s, n)
    ensures WellFormed(s) ==> WellFormed(r.storage)
    ensures |r.storage| == |Open(s, ImageCacheName)| &&
      forall i :: 0 <= i < |r.storage| ==> r.storage[i].name == Open(s, ImageCacheName)[i].name
  {
    var current := Open(s, ImageCacheName);
    match MatchIn(current, ImageCacheName, req.url)
    case Some(cached) => Served(cached, current)
    case None =>
      match net
      case Responded(resp) =>
        if resp.Ok() then Served(resp, Put(current, ImageCacheName, req.url, resp))
        else Served(resp, current)
      case NetworkError =>
        match MatchAny(current, Resolve(origin, PlaceholderPath))
        case Some(placeholder) => Served(placeholder, current)
        case None => Served(ImageNotAvailable, current)
  }

  /** `handleStaticRequest`: cache-first on the static partition; on a
      network error a navigation gets the cached offline page, anything else
      a 404. */
  function HandleStaticRequest(s: Storage, origin: string, req: Request, net: FetchOutcome): (r: Served)
    ensures MatchIn(s, StaticCacheName, req.url).Some? ==>
      r == Served(MatchIn(s, StaticCacheName, req.url).value, s)
    ensures MatchIn(s, StaticCacheName, req.url).None? && net.Responded? ==> r.response == net.response
    ensures MatchIn(s, StaticCacheName, req.url).None? && FetchedOk(net) ==>
      MatchIn(r.storage, StaticCacheName, req.url) == Some(net.response)
    ensures MatchIn(s, StaticCacheName, req.url).None? && FetchedOk(net) ==>
      Lookup(r.storage, StaticCacheName) == Some(Lookup(Open(s, StaticCacheName), StaticCacheName).value[req.url := net.response])
    ensures MatchIn(s, StaticCacheName, req.url).None? && !FetchedOk(net) ==> r.storage == Open(s, StaticCacheName)
    ensures MatchIn(s, StaticCacheName, req.url).None? && net.NetworkError? ==>
      r.response ==
        (if req.mode == "navigate" then MatchAny(s, Resolve(origin, OfflinePath)) else None).GetOr(ResourceNotAvailable)
    ensures forall n :: n != StaticCacheName ==> Lookup(r.storage, n) == Lookup(s, n)
    ensures WellFormed(s) ==> WellFormed(r.storage)
    ensures |r.storage| == |Open(s, StaticCacheName)| &&
      forall i :: 0 <= i < |r.storage| ==> r.storage[i].name == Open(s, StaticCacheName)[i].name
  {
    var current := Open(s, StaticCacheName);
    match MatchIn(current, StaticCacheName, req.url)
    case Some(cached) => Served(cached, current)
    case None =>
      match net
      case Responded(resp) =>
        if resp.Ok() then Served(resp, Put(current, StaticCacheName, req.url, resp))
        else Served(resp, current)
      case NetworkError =>
        if req.mode == "navigate" && MatchAny(current, Resolve(origin, OfflinePath)).Some? then
          Served(MatchAny(current, Resolve(origin, OfflinePath)).value, current)
        else Served(ResourceNotAvailable, current)
  }

  datatype FetchResult = PassThrough | RespondWith(served: Served)

  /** The partition a route reads and writes. */
  function RouteCache(route: Route): string {
    if route == StaticRoute then StaticCacheName else ImageCacheName
  }

  /** The fetch listener: route the request, then run its strategy. A
      pass-through leaves the request to the browser and touches no cache. */
  function HandleFetch(s: Storage, origin: string, req: Request, net: FetchOutcome): (r: FetchResult)
    ensures r.PassThrough? <==> RouteOf(req, origin) == Unhandled
    ensures req.httpMethod != "GET" ==> r.PassThrough?
    ensures r.RespondWith? ==> forall n :: n != RouteCache(RouteOf(req, origin)) ==>
      Lookup(r.served.storage, n) == Lookup(s, n)
    ensures r.RespondWith? && WellFormed(s) ==> WellFormed(r.served.storage)
    ensures r.RespondWith? && MatchIn(s, RouteCache(RouteOf(req, origin)), req.url).Some? ==>
      r.served == Served(MatchIn(s, RouteCache(RouteOf(req, origin)), req.url).value, s)
    ensures r.RespondWith? && MatchIn(s, RouteCache(RouteOf(req, origin)), req.url).None? && net.Responded? ==>
      r.served.response == net.response
  {
    match RouteOf(req, origin)
    case Unhandled => PassThrough
    case ImageRoute => RespondWith(HandleImageRequest(s, origin, req, net))
    case StaticRoute => RespondWith(HandleStaticRequest(s, origin, req, net))
  }

  // ---------------------------------------------------------------------
  // Properties relating several events

  /** A same-origin request for the seeded favicon is an image request: it
      is served through the image partition, never from the static partition
      the install step seeded it into. */
  lemma FaviconTakesImageRoute(origin: string, req: Request)
    requires req.httpMethod == "GET" && req.origin == origin && req.pathname == "/favicon.png"
    ensures RouteOf(req, origin) == ImageRoute
    ensures RouteCache(RouteOf(req, origin)) != StaticCacheName
  {
  }

  /** After an ok response has been cached, the same request is served from
      the image partition whatever the network would say, and nothing changes. */
  lemma ImageSecondRequestHits(s: Storage, origin: string, req: Request, resp: Response, net2: FetchOutcome)
    requires resp.Ok()
    requires MatchIn(s, ImageCacheName, req.url).None?
    ensures var first := HandleImageRequest(s, origin, req, Responded(resp));
      HandleImageRequest(first.storage, origin, req, net2) == Served(resp, first.storage)
  {
  }

  /** Likewise for the static partition. */
  lemma StaticSecondRequestHits(s: Storage, origin: string, req: Request, resp: Response, net2: FetchOutcome)
    requires resp.Ok()
    requires MatchIn(s, StaticCacheName, req.url).None?
    ensures var first := HandleStaticRequest(s, origin, req, Responded(resp));
      HandleStaticRequest(first.storage, origin, req, net2) == Served(resp, first.storage)
  {
  }

  /** A non-ok image answer is returned as it is even when a placeholder is
      cached, and is not stored: the next request goes to the network again. */
  lemma ImageNotOkPassesThrough(s: Storage, origin: string, req: Request, resp: Response, net2: FetchOutcome)
    requires !resp.Ok()
    requires MatchIn(s, ImageCacheName, req.url).None?
    ensures var first := HandleImageRequest(s, origin, req, Responded(resp));
      && first.response == resp
      && MatchIn(first.storage, ImageCacheName, req.url).None?
      && HandleImageRequest(first.storage, origin, req, net2) ==
         HandleImageRequest(Open(s, ImageCacheName), origin, req, net2)
  {
  }

  /** Once the worker has installed and activated, a navigation that misses
      the static partition while the network is down gets a cached offline
      page rather than the synthetic 404. */
  lemma OfflinePageAfterInstall(s: Storage, origin: string, net: string -> FetchOutcome, req: Request)
    requires Install(s, origin, net).Installed?
    requires req.mode == "navigate"
    ensures var active := Activate(Install(s, origin, net).storage);
      var offline := MatchAny(active, Resolve(origin, OfflinePath));
      && offline.Some?
      && (MatchIn(active, StaticCacheName, req.url).None? ==>
            HandleStaticRequest(active, origin, req, NetworkError).response == offline.value)
  {
    var installed := Install(s, origin, net).storage;
    var active := Activate(installed);
    var key := Resolve(origin, OfflinePath);
    assert OfflinePath in StaticFiles;
    assert MatchIn(active, StaticCacheName, key).Some?;
    MatchInFoundByMatchAny(active, StaticCacheName, key);
  }

  /** A key held by some partition is found by `caches.match`. */
  lemma {:induction false} MatchInFoundByMatchAny(s: Storage, name: string, key: string)
    requires MatchIn(s, name, key).Some?
    ensures MatchAny(s, key).Some?
    decreases |s|
  {
    if key !in s[0].entries {
      MatchInFoundByMatchAny(s[1..], name, key);
    }
  }
}

=== FILE: text.dfy ===
/** String helpers with the meaning of the JavaScript built-ins the
    application calls: `startsWith`, `endsWith`, `includes`, `trim`, an
    ASCII case-insensitive comparison, and `String(n)` on integers. */
module Text {
  import opened Wrappers

  /** `s.startsWith(p)` */
  predicate IsPrefix(p: string, s: string) {
    |p| <= |s| && s[..|p|] == p
  }

  /** `s.endsWith(x)` */
  predicate IsSuffix(x: string, s: string) {
    |x| <= |s| && s[|s| - |x|..] == x
  }

  /** `s.includes(w)`: `w` occurs in `s` as a contiguous substring. */
  predicate Contains(s: string, w: string)
    decreases |s|
  {
    IsPrefix(w, s) || (|s| > 0 && Contains(s[1..], w))
  }

  /** An occurrence in the left operand is an occurrence in the concatenation. */
  lemma {:induction false} ContainsLeft(a: string, b: string, w: string)
    requires Contains(a, w)
    ensures Contains(a + b, w)
    decreases |a|
  {
    if IsPrefix(w, a) {
      assert (a + b)[..|w|] == a[..|w|];
    } else {
      assert |a| > 0 && Contains(a[1..], w);
      ContainsLeft(a[1..], b, w);
      assert (a + b)[1..] == a[1..] + b;
    }
  }

  /** An occurrence in the right operand is an occurrence in the concatenation. */
  lemma {:induction false} ContainsRight(a: string, b: string, w: string)
    requires Contains(b, w)
    ensures Contains(a + b, w)
    decreases |a|
  {
    if a == [] {
      assert a + b == b;
    } else {
      ContainsRight(a[1..], b, w);
      assert (a + b)[1..] == a[1..] + b;
    }
  }

  /** A word without `c` that is longer than `a` is not a prefix of `a + [c] + b`. */
  lemma NotPrefixPastSeparator(a: string, c: char, b: string, w: string)
    requires c !in w
    requires |w| > |a|
    ensures !IsPrefix(w, a + [c] + b)
  {
    var s := a + [c] + b;
    assert s[|a|] == c;
    assert w[|a|] in w;
  }

  /** A word that does not contain the separator `c` cannot straddle it:
      an occurrence in `a + [c] + b` lies wholly in `a` or wholly in `b`. */
  lemma {:induction false} ContainsAcrossSeparator(a: string, c: char, b: string, w: string)
    requires c !in w
    requires Contains(a + [c] + b, w)
    ensures Contains(a, w) || Contains(b, w)
    decreases |a|
  {
    var s := a + [c] + b;
    if |w| > |a| {
      NotPrefixPastSeparator(a, c, b, w);
    }
    if IsPrefix(w, s) {
      assert s[..|w|] == a[..|w|];
    } else if a == [] {
      assert s[1..] == b;
    } else {
      assert s[1..] == a[1..] + [c] + b;
      ContainsAcrossSeparator(a[1..], c, b, w);
    }
  }

  /** The characters `String.prototype.trim` strips: ECMAScript WhiteSpace
      (tab, vertical tab, form feed, space, no-break space, byte-order mark
      and the Unicode space separators) and LineTerminator. */
  predicate IsJsWhiteSpace(c: char) {
    c in {
      '\t', '\U{000B}', '\U{000C}', ' ', '\U{00A0}', '\U{FEFF}',
      '\U{1680}', '\U{2000}', '\U{2001}', '\U{2002}', '\U{2003}', '\U{2004}',
      '\U{2005}', '\U{2006}', '\U{2007}', '\U{2008}', '\U{2009}', '\U{200A}',
      '\U{202F}', '\U{205F}', '\U{3000}',
      '\n', '\r', '\U{2028}', '\U{2029}'
    }
  }

  /** Every character of `s` is white space (vacuously true of ""). */
  predicate AllWhiteSpace(s: string) {
    forall i :: 0 <= i < |s| ==> IsJsWhiteSpace(s[i])
  }

  /** Two white-space runs joined are one white-space run. */
  lemma AllWhiteSpaceJoin(a: string, b: string)
    requires AllWhiteSpace(a) && AllWhiteSpace(b)
    ensures AllWhiteSpace(a + b)
  {
    assert forall i :: 0 <= i < |a + b| ==> (a + b)[i] == if i < |a| then a[i] else b[i - |a|];
  }

  /** Neither end of `s` is white space. */
  predicate IsTrimmed(s: string) {
    s == [] || (!IsJsWhiteSpace(s[0]) && !IsJsWhiteSpace(s[|s| - 1]))
  }

  function TrimStart(s: string): (r: string)
    ensures IsSuffix(r, s)
    ensures r == [] || !IsJsWhiteSpace(r[0])
    ensures AllWhiteSpace(s[..|s| - |r|])
    decreases |s|
  {
    if |s| > 0 && IsJsWhiteSpace(s[0]) then
      var r := TrimStart(s[1..]);
      assert s[|s| - |r|..] == s[1..][|s[1..]| - |r|..];
      assert s[..|s| - |r|] == [s[0]] + s[1..][..|s[1..]| - |r|];
      AllWhiteSpaceJoin([s[0]], s[1..][..|s[1..]| - |r|]);
      r
    else s
  }

  function TrimEnd(s: string): (r: string)
    ensures IsPrefix(r, s)
    ensures r == [] || !IsJsWhiteSpace(r[|r| - 1])
    ensures AllWhiteSpace(s[|r|..])
    decreases |s|
  {
    if |s| > 0 && IsJsWhiteSpace(s[|s| - 1]) then
      var r := TrimEnd(s[..|s| - 1]);
      assert s[..|r|] == s[..|s| - 1][..|r|];
      assert s[|r|..] == s[..|s| - 1][|r|..] + [s[|s| - 1]];
      AllWhiteSpaceJoin(s[..|s| - 1][|r|..], [s[|s| - 1]]);
      r
    else s
  }

  /** `r` is `s` with a white-space run of length `lo` removed in front and
      one removed behind. */
  predicate TrimmedAt(s: string, r: string, lo: nat) {
    && lo + |r| <= |s|
    && s[lo..lo + |r|] == r
    && AllWhiteSpace(s[..lo])
    && AllWhiteSpace(s[lo + |r|..])
  }

  /** `s.trim()`: the longest infix of `s` that neither starts nor ends with
      white space, obtained by removing only white space. It is empty
      exactly when `s` is all white space. */
  function Trim(s: string): (r: string)
    ensures IsTrimmed(r)
    ensures exists lo: nat :: TrimmedAt(s, r, lo)
    ensures r == [] <==> AllWhiteSpace(s)
  {
    TrimWitness(s);
    TrimEmpty(s);
    TrimEnd(TrimStart(s))
  }

  /** Trimming both ends removes white-space runs of known lengths. */
  lemma TrimWitness(s: string)
    ensures TrimmedAt(s, TrimEnd(TrimStart(s)), |s| - |TrimStart(s)|)
  {
    TrimmedAtParts(s, TrimStart(s), TrimEnd(TrimStart(s)));
  }

  /** A white-space prefix cut from `s` leaving `t`, then a white-space
      suffix cut from `t` leaving `r`, is a trim of `s` at that prefix. */
  lemma TrimmedAtParts(s: string, t: string, r: string)
    requires IsSuffix(t, s) && AllWhiteSpace(s[..|s| - |t|])
    requires IsPrefix(r, t) && AllWhiteSpace(t[|r|..])
    ensures TrimmedAt(s, r, |s| - |t|)
  {
    var lo := |s| - |t|;
    assert s[lo..lo + |r|] == t[..|r|];
    assert s[lo + |r|..] == t[|r|..];
  }

  /** Nothing is left exactly when everything was white space. */
  lemma TrimEmpty(s: string)
    ensures TrimEnd(TrimStart(s)) == [] <==> AllWhiteSpace(s)
  {
    var t := TrimStart(s);
    if TrimEnd(t) == [] {
      assert t[0..] == t;
      assert s[..|s| - |t|] + t == s;
      AllWhiteSpaceJoin(s[..|s| - |t|], t);
    }
    if AllWhiteSpace(s) {
      assert t == s[|s| - |t|..];
    }
  }

  /** Trimming a string that is already trimmed changes nothing, so
      `Trim` is idempotent. */
  lemma TrimIdempotent(s: string)
    ensures IsTrimmed(s) ==> Trim(s) == s
    ensures Trim(Trim(s)) == Trim(s)
  {
  }

  /** ASCII case folding, the folding a non-Unicode `/i` regular expression
      applies when its pattern letters are ASCII. */
  function AsciiLower(c: char): (r: char)
    ensures 'A' <= c <= 'Z' ==> 'a' <= r <= 'z' && r as int - c as int == 32
    ensures !('A' <= c <= 'Z') ==> r == c
  {
    if 'A' <= c <= 'Z' then (c as int + 32) as char else c
  }

  function LowerAscii(s: string): (r: string)
    ensures |r| == |s|
    ensures forall i :: 0 <= i < |s| ==> r[i] == AsciiLower(s[i])
  {
    seq(|s|, i requires 0 <= i < |s| => AsciiLower(s[i]))
  }

  predicate IsDigit(c: char) {
    '0' <= c <= '9'
  }

  function DigitChar(d: nat): (c: char)
    requires d < 10
    ensures IsDigit(c) && c as int - '0' as int == d
  {
    ('0' as int + d) as char
  }

  function DigitValue(c: char): nat
    requires IsDigit(c)
  {
    c as int - '0' as int
  }

  predicate AllDigits(s: string) {
    forall i :: 0 <= i < |s| ==> IsDigit(s[i])
  }

  /** Decimal rendering of a natural number, as JavaScript's `String(n)`
      prints an integer-valued number below 10^21: at least one digit and
      no leading zero. */
  function NatToString(n: nat): (s: string)
    ensures |s| >= 1 && AllDigits(s)
    ensures s[0] == '0' ==> n == 0
    decreases n
  {
    if n < 10 then [DigitChar(n)] else NatToString(n / 10) + [DigitChar(n % 10)]
  }

  /** The value of a string of decimal digits ("" reads as 0). */
  function ParseNat(s: string): nat
    requires AllDigits(s)
  {
    if s == [] then 0 else 10 * ParseNat(s[..|s| - 1]) + DigitValue(s[|s| - 1])
  }

  lemma {:induction false} ParseNatToString(n: nat)
    ensures ParseNat(NatToString(n)) == n
    decreases n
  {
    var s := NatToString(n);
    if n >= 10 {
      ParseNatToString(n / 10);
      assert s[..|s| - 1] == NatToString(n / 10);
    }
  }

  /** `String(n)` for an integer `n`: a minus sign for negative numbers,
      then the decimal digits of the magnitude. */
  function IntToString(n: int): (s: string)
    ensures |s| >= 1 && ' ' !in s
    ensures s[0] == '-' <==> n < 0
  {
    if n < 0 then "-" + NatToString(-n) else NatToString(n)
  }

  /** Reads an optionally signed decimal integer; fails on anything else. */
  function ParseInt(s: string): Option<int> {
    if |s| >= 2 && s[0] == '-' && AllDigits(s[1..]) then Some(0 - ParseNat(s[1..]) as int)
    else if |s| >= 1 && AllDigits(s) then Some(ParseNat(s))
    else None
  }

  /** Reading back the rendering of any integer returns that integer. */
  lemma IntToStringRoundTrip(n: int)
    ensures ParseInt(IntToString(n)) == Some(n)
  {
    var s := IntToString(n);
    if n < 0 {
      assert s[1..] == NatToString(-n);
      ParseNatToString(-n);
    } else {
      ParseNatToString(n);
    }
  }
}

=== FILE: wrappers.dfy ===
/** `Option` and `Result`, shared by every module of the model. */
module Wrappers {

  /** A value that may be absent: JavaScript's `undefined`/`null` results. */
  datatype Option<+T> = None | Some(value: T) {

    /** Returns the wrapped value, or `default` when there is none. */
    function GetOr(default: T): (r: T)
      ensures Some? ==> r == value
      ensures None? ==> r == default
    {
      match this
      case Some(v) => v
      case None => default
    }
  }

  /** The outcome of a validation step: a value, or an error message. */
  datatype Result<+R, +E> = Success(value: R) | Failure(error: E)
}
